=== FILE: README.md ===
# C2DB crawler: per-record JSON extraction, modelled in Dafny

The crawler walks the materials of the C2DB database. For each material uid it
fetches three JSON documents from `https://cmrdb.fysik.dtu.dk/c2db/row/<uid>/data/<type>/json`:
the material fingerprint, the structure info and the band structure. It
extracts a reduced record from them and writes the record to `c2db_<uid>.json`.
This project models that logic as pure functions over an algebraic JSON
value, and proves what each step promises.

Modules (one file each):

- `wrappers.dfy` (`Wrappers`): `Option` and `Result`.
- `json.dfy` (`Json`):
  - the JSON datatype;
  - the Python exceptions the extraction code can raise (`Failure`);
  - `checkTypeDict`;
  - key and index access;
  - Python's `str()` of a value.
- `ndarray.dfy` (`NdArray`):
  - the `"__ndarray__"` convention, where an array is stored as a `[shape, dtype, flat]` triple;
  - row-major `reshape`;
  - flattening;
  - `tolist`, which the output encoder writes for every array.
- `doctypes.dfy` (`DocTypes`):
  - the closed table of document types, keyed by file name;
  - the table lookup.
- `values.dfy` (`Values`):
  - the Python values the extractors build: JSON kept as is, numpy arrays and dicts;
  - the numpy-aware `json.dump` encoder.
- `extractors.dfy` (`Extractors`):
  - the four real extractors (band structure, relaxed cell, material fingerprint, structure info);
  - `getInfoJson`;
  - the stubs;
  - the dispatch `Handler`.
- `assembler.dfy` (`Assembler`): the client object's `getInfoType`, the URL rule and `getJsonbyTypeList`.
- `crawl.dfy` (`Crawl`): the `main` loop of the crawl script, as a fold over the uids with the counters `count`, `invalid` and `invalid_list` and the written files.

Every operation returns `Outcome<T> = Result<T, Failure>`: either the Python value the source returns or the exception it raises.
- `Failure` keeps `AssertionError` apart, because it is the only exception the crawl loop catches.
- `raise ("...")` raises a TypeError in Python (a string is not an exception). It is modelled as `RaisedString`.

Behaviour worth knowing:
- The table has 27 entries: four real extractors, `getInfoJson` (which only checks its document) and 22 stubs.
- A stub returns `None`. There is no separate "not implemented" outcome.
- A band-structure variant whose energies are missing is written as `{}`; its key is not omitted.
- Only the no-SOC variant's first dimension is classified as spin-polarized or not.
- A relaxed-cell document that is `null` gives `None`. Any other non-dict document raises a TypeError (modelled as `NotSubscriptable`) on `["kwargs"]`.
- The relaxed cell's `symbols` is the whole `kwargs.data` object.
- Any exception other than `AssertionError` ends the whole crawl.

## Model

| member | source | states |
|---|---|---|
| Json.CheckTypeDict | c2dbjson.py:405-406 | succeeds exactly when the document is a dict; otherwise fails with AssertionError, the one failure the crawl forgives |
| Json.Get | c2dbjson.py:131-132 | `j[key]` gives the value when `j` is a dict holding the key, raises KeyError with the key when the dict lacks it, and TypeError on any other value |
| Json.Index | c2dbjson.py:135 | `j[i]` gives a list's item or a string's one-character substring in range, IndexError past the end, KeyError on a dict and TypeError on anything else |
| Json.NatToDecimal | c2dbjson.py:246 | the decimal form of a natural number is made of digits, has no leading zero, and read back by `DecimalValue` is the number |
| Json.PyStr | c2dbjson.py:246 | `str()` of a string is the string itself; of an integer its decimal digits without leading zeros, preceded by `-` when negative, which read back give the integer |
| NdArray.Reshape | c2dbjson.py:146 | defined when the element count equals the product of the shape; the result has exactly that shape and flattens row-major back to the data |
| NdArray.ReshapeFlatten | c2dbjson.py:146 | reshaping an array's own row-major data to its shape gives the array back (reshape is injective on well-shaped arrays) |
| NdArray.ToListLeaves | c2dbjson.py:414-416 | `tolist` of an array, read back row-major to the depth of its shape, is the array's flat data |
| NdArray.ToListShape | c2dbjson.py:414-416 | `tolist` of an array nests its lists exactly as the shape says: one list per level, each as long as that dimension |
| NdArray.Triple | c2dbjson.py:135 | items 0, 1 and 2 of a list of at least three items; a shorter list raises IndexError; otherwise the error of the first index that fails, in the order 0, 1, 2 |
| NdArray.ShapeOf | c2dbjson.py:271 | a shape list is accepted exactly when every entry is a non-negative integer, and then gives those dimensions in order; an empty string or empty dict is the empty shape; any other non-list is rejected |
| NdArray.ReshapeEncoded | c2dbjson.py:146 | reshaping a triple succeeds exactly when the shape is readable and the flat data has as many elements as the shape's product; the result has that shape and that flat data |
| NdArray.Decode | c2dbjson.py:270-272 | decoding succeeds exactly when the value has three items, a readable shape and a matching element count; the array has the declared shape and the flat data row-major |
| NdArray.DecodeEncode | c2dbjson.py:270-272 | decoding the triple stored for an array of a given shape gives that array back, whatever the dtype |
| NdArray.DecodeToList | c2dbjson.py:414-416 | a decoded array, written with `tolist` and read back row-major, is the triple's flat data |
| NdArray.FromFlatToList | c2dbjson.py:279 | an array built from flat data and never reshaped is written back exactly as it came |
| DocTypes.Parse | c2dbjson.py:20-46 | the lookup returns an entry only for that entry's own key |
| DocTypes.ParseName | c2dbjson.py:20-46 | looking up any entry's key finds that entry |
| DocTypes.ParseComplete | c2dbjson.py:61 | the lookup succeeds exactly for the keys of the table |
| DocTypes.NameInjective | c2dbjson.py:20-46 | no two entries share a key |
| DocTypes.AllTypesComplete | c2dbjson.py:20-46 | the table lists 27 entries and every document type among them |
| Values.Serialize | c2dbjson.py:409-417 | a dict is written as an object with the same keys and each value written in turn |
| Values.SerializeArray | c2dbjson.py:414-416 | an array is written as nested lists of exactly its shape whose row-major leaves are its elements |
| Extractors.SpinPolarized | c2dbjson.py:136-141 | first dimension 1 (or `True`) gives 0, 2 gives 1, any other readable value fails with the raised-string TypeError, and a shape without item 0 fails with that indexing error |
| Extractors.ReadKPath | c2dbjson.py:149-158 | succeeds exactly when the `path.kpts` triple decodes and `path` holds `labelseq` and `special_points`; the k-points are the decoded triple, and the labels and special points are copied from `path` |
| Extractors.Variant | c2dbjson.py:130-164 | a variant is `{}` exactly when the way to its energies raises KeyError; any other failure on that way escapes; otherwise it is the no-SOC or SOC entry built from the energies found |
| Extractors.NoSocEntry | c2dbjson.py:135-158 | succeeds exactly when the energies triple decodes with a first dimension of 1 or 2 and the `bs_nosoc` k-path reads; the entry has exactly the keys `kpath`, `is_spinpolarized`, `bands`, `koints_labels` and `special_points`; `bands` is the decoded energies; the flag is 0 or 1 exactly for a first dimension of 1 or 2; any other first dimension raises; the k-path fields are those read from `path` |
| Extractors.SocEntry | c2dbjson.py:165-180 | succeeds exactly when the energies triple decodes and the `bs_soc` k-path reads; the entry has the no-SOC keys minus the spin flag, with the decoded energies and the k-path fields of `bs_soc` |
| Extractors.ExtractBands | c2dbjson.py:104-182 | a non-dict document fails the type check, and a dict never does; a dict yields a record exactly when both variants do; the record always has both `nonsoc_energies` and `soc_energies`; a variant is `{}` exactly when the way to its energies raises KeyError; otherwise it is that variant's entry |
| Extractors.BandsBothMissing | c2dbjson.py:104-182 | a dict with neither variant's energies yields a record with both entries `{}` |
| Extractors.BandsNoSocOnly | c2dbjson.py:104-182 | a dict with a well-formed no-SOC variant and no SOC energies yields the no-SOC entry and `{}` for SOC |
| Extractors.ReadLattice | c2dbjson.py:212-217 | succeeds exactly on a dict holding all of `a`, `b`, `c`, `alpha`, `beta` and `gamma`, and copies the six constants from those keys |
| Extractors.RelaxedCell | c2dbjson.py:202-233 | succeeds exactly when `spos` decodes, the six constants are present and `edft` is present; the cell has exactly the keys `symbols`, `lattice_info`, `energy_dft` and `supercell_positions`; `symbols` is the whole data object, the energy is `edft`, the positions are the decoded `spos` and the lattice info holds the six constants |
| Extractors.ExtractRelaxedCell | c2dbjson.py:185-202 | a `null` document gives None; any other non-dict raises a TypeError; AssertionError never escapes; otherwise the result is the cell of `kwargs.data` |
| Extractors.RelaxedCellFields | c2dbjson.py:202-231 | stated against the document itself: every lattice constant and the energy are copied from `kwargs.data`, `symbols` is `kwargs.data` and the positions are the decoded `kwargs.data.spos` |
| Extractors.ExtractFingerprint | c2dbjson.py:237-251 | non-dicts fail the type check; otherwise the call succeeds exactly when `kwargs.data.uid` exists, and returns its `str()` |
| Extractors.FingerprintIgnoresRequest | c2dbjson.py:245-251 | the requested uid does not change the result; a document whose uid is another string returns that other uid and is reported as a mismatch |
| Extractors.ReadSpglib | c2dbjson.py:268-279 | succeeds exactly when `number` is present, `std_lattice` and `std_positions` decode and the `std_types` triple has an item 2; the number is copied, the lattice and positions are the decoded triples, and the atom types are item 2 of `std_types` |
| Extractors.ExtractStructureInfo | c2dbjson.py:254-288 | non-dicts fail the type check; a dict succeeds exactly when `kwargs.data` holds formula, point group, space group and a readable `spglib_dataset`; the result has exactly the seven keys; formula, point group and space group are copied from `kwargs.data`; the spglib fields come from `spglib_dataset` |
| Extractors.StructureInfoArrays | c2dbjson.py:268-285 | stated against the document: the number and the two reshaped arrays come from `kwargs.data.spglib_dataset` |
| Extractors.StructureInfoAtomTypes | c2dbjson.py:278-286 | the atom types are written back exactly as the flat data of `std_types`, without reshaping |
| Extractors.Handler | c2dbjson.py:291-402 | every stub entry returns None whatever the document; `getInfoJson` returns None for a dict and fails the type check otherwise; the fingerprint entry succeeds exactly when the fingerprint extractor does, returning its uid string, and otherwise fails with the extractor's error |
| Extractors.AssertionOnlyFromTypeCheck | c2dbjson.py:405-406 | a handler fails with AssertionError exactly when its type runs `checkTypeDict` and the document is not a dict |
| Assembler.Url | c2dbjson.py:71 | the document URL is the base URL, the uid, `/data/`, the type name and `/json` |
| Assembler.UrlDistinct | c2dbjson.py:71 | two documents of one material never share a URL |
| Assembler.ParseTypes | c2dbjson.py:60-62 | the list is accepted exactly when every name is non-empty and a key of the table; each accepted name maps to its entry; otherwise the raised-string TypeError |
| Assembler.GetInfoType | c2dbjson.py:55-62 | an empty list is refused; otherwise the list is accepted exactly when every name is a non-empty key, and is kept in order and in full |
| Assembler.ParseTypesNames | c2dbjson.py:59-62 | the names of any list of entries are accepted and give back that list |
| Assembler.Collect | c2dbjson.py:69-74 | the dict has exactly the types' names as keys, each holding its type's value; the call succeeds exactly when every value does, and otherwise fails with the first failure in order |
| Assembler.GetJsonByTypeList | c2dbjson.py:64-74 | the same, for each type's handler applied to the document fetched from that type's URL |
| Crawl.TypeListParses | crawlC2DB.py:8 | the crawl's type list passes `getInfoType` and selects the fingerprint, structure-info and band-structure entries |
| Crawl.FileNameInjective | c2dbjson.py:48 | distinct uids are written to distinct files |
| Crawl.Rename | crawlC2DB.py:33-34 | the record is built exactly when every mapped name is in the dict; each output key holds the value of its last mapped name; otherwise the first missing name raises KeyError |
| Crawl.BuildRecord | crawlC2DB.py:9 | the record has exactly the keys `uid`, `structure` and `bands`, holding the fingerprint, structure-info and band-structure values; a missing name raises KeyError |
| Crawl.RecordFromCollected | crawlC2DB.py:8-9 | every name the record reads is among the requested types, so building the record never fails |
| Crawl.Finish | crawlC2DB.py:25-37 | exactly an AssertionError skips the uid; any other failure escapes; otherwise a record with the three keys is written to `c2db_<uid>.json` |
| Crawl.ProcessUid | crawlC2DB.py:19-37 | a uid is written exactly when all three documents are extracted, and a crash is the extraction's own failure |
| Crawl.SavedExactly | crawlC2DB.py:25-37 | a material is written exactly when all three of its extractors succeed |
| Crawl.SavedFields | crawlC2DB.py:33-36 | when all three extractors succeed, the material is written and its fields are the serialized values collected under the three mapped type names |
| Crawl.SavedUid | crawlC2DB.py:9 | when all three extractors succeed, the material is written and its `uid` is the string the fingerprint extractor returned for its document |
| Crawl.SavedStructure | crawlC2DB.py:9 | when all three extractors succeed, the material is written and its `structure` is the serialized structure-info dict of its document |
| Crawl.SavedBands | crawlC2DB.py:9 | when all three extractors succeed, the material is written and its `bands` is the serialized band-structure dict of its document |
| Crawl.SkippedExactly | crawlC2DB.py:25-31 | a uid is skipped exactly when the first of its documents whose extractor fails is not a dict |
| Crawl.CrawlFrom | crawlC2DB.py:17-39 | each counter stays equal to the length of its list; a finished loop has counted each uid once; an abort is at a uid whose processing crashed; the lists only grow |
| Crawl.Crawl | crawlC2DB.py:11-41 | from zero, `invalid` equals the length of the invalid list and `count` the number of files; a finished crawl counts every uid; an abort carries an exception the loop does not catch |
| Crawl.CrawlFromSpec | crawlC2DB.py:17-39 | the loop matches the one-uid-at-a-time reference: it finishes exactly when no uid crashes, with the skipped uids and written files appended in order; otherwise it stops at the first crash with only the earlier uids processed |
| Crawl.StartSpec | crawlC2DB.py:12-39 | from the initial counters the loop's state is exactly the reference summary of the processed uids |
| Crawl.CrawlSpec | crawlC2DB.py:12-41 | the crawl finishes exactly when no uid crashes; its state is then the summary of all uids, and otherwise the summary of the uids before the first crash |
| Crawl.FirstCrash | crawlC2DB.py:17-26 | the position found is a uid whose processing raises an uncaught exception, and no earlier uid raises one; none is found exactly when no uid raises |
| Crawl.SkippedUidsMembers | crawlC2DB.py:29-30 | the invalid list of the summary (the crawl's own list, by CrawlSpec) contains exactly the uids that were skipped |
| Crawl.SavedFilesMembers | crawlC2DB.py:36 | the written files of the summary are exactly the files of the uids that were saved |
| Crawl.SavedFileNames | c2dbjson.py:48 | every written file is named `c2db_<uid>.json` after one of the crawl's uids |

## Left out

- Fetching (`getJsonByURL`, c2dbjson.py:77-90) and `json.loads` are modelled by a total parameter `fetch: string -> Json` that maps a URL to its parsed document. HTTP failures and the crash on `.read()` of the `None` they leave behind are not modelled.
- File writing, `json.dump` indentation and the output directory: a written file is its name and the JSON value of its contents.
- The `ase.db` connection and its row iteration are replaced by the sequence of uids.
- `print` output (progress line, mismatch report, stub messages, the final invalid list) is left out. The final invalid list is the one in the loop's state.
- JSON numbers are integers. Floating-point values are never computed with, so they are left out.
- NdArray.ShapeOf: accepts only non-negative integers. numpy also accepts booleans as dimensions and infers a single `-1`; both are left out and rejected here. numpy's upper limit on a dimension (the platform's `intp` size) is not modelled either: any non-negative integer is accepted.
- NdArray.Decode: counts a nested list in the flat data as one element per item. numpy would flatten nested lists further; that case is left out.
- Json.PyStr: lists and dicts are rendered as the fixed markers `[...]` and `{...}`, not as Python's full `repr`; floats do not occur in the model.
- NdArray.ReshapeEncoded: numpy's conversion of mixed or overflowing flat data to one dtype is not modelled. Elements are copied as they are, so `[1, true]` stays `[1, true]` where numpy would give `[1, 1]`.
- NdArray.Decode: numpy's conversion of mixed flat data to one dtype is not modelled; the decoded array holds the flat elements as they are.
- NdArray.DecodeToList: holds for the elements as they are. numpy's conversion of mixed or overflowing flat data (`[1, "a"]` written back as `["1", "a"]`) is not modelled.
- NdArray.FromFlatToList: "written back exactly as it came" holds for the model's elements, which are copied as they are. numpy's conversion of mixed or overflowing flat data to one dtype is not modelled.
- Extractors.StructureInfoAtomTypes: the atom types are copied as they are. numpy's conversion of mixed `std_types` data to one dtype is not modelled.
- Error kinds are coarse for malformed `"__ndarray__"` triples: the model may name a different TypeError or IndexError than Python would for the same bad value. Whether a failure is an AssertionError is exact everywhere, and that is all the crawl loop observes.
- The mismatch report of the fingerprint extractor is only a predicate (`IdMismatch`), which `Extractors.FingerprintIgnoresRequest` shows holds whenever the document carries another uid. The printed message itself is I/O and left out; it has no effect on the result, as in the source.

=== FILE: assembler.dfy ===
/**
 * One C2DB client object: validating the requested document types, building
 * each document's URL, and collecting the extracted values into one dict
 * keyed by type name.
 */
module Assembler {
  import opened Wrappers
  import opened Json
  import opened Values
  import opened DocTypes
  import opened Extractors

  const BaseUrl: string := "https://cmrdb.fysik.dtu.dk/c2db/row/"

  /** The client's row URL, `<base><uid>/data`. */
  function RowUrl(uid: string): string
  {
    BaseUrl + uid + "/data"
  }

  /** URL of one document of a material: `<row url>/<type name>/json`. */
  function Url(uid: string, t: DocType): (url: string)
    ensures url == BaseUrl + uid + "/data/" + Name(t) + "/json"
  {
    RowUrl(uid) + "/" + Name(t) + "/json"
  }

  /** Two documents of one material never share a URL. */
  lemma UrlDistinct(uid: string, a: DocType, b: DocType)
    ensures Url(uid, a) == Url(uid, b) ==> a == b
  {
    if Url(uid, a) == Url(uid, b) {
      ConcatCancel(RowUrl(uid) + "/", Name(a), Name(b), "/json");
      NameInjective(a, b);
    }
  }

  /** A common prefix and suffix can be cancelled. */
  lemma ConcatCancel<T>(p: seq<T>, x: seq<T>, y: seq<T>, s: seq<T>)
    requires p + x + s == p + y + s
    ensures x == y
  {
    assert |x| == |y|;
    assert x == (p + x + s)[|p|..|p| + |x|];
    assert y == (p + y + s)[|p|..|p| + |y|];
  }

  /** Every requested name checked: non-empty and a key of the table, each looked up in order. */
  function ParseTypes(types: seq<string>): (r: Outcome<seq<DocType>>)
    ensures r.Err? ==> r.error == RaisedString
    ensures r.Ok? <==> forall i :: 0 <= i < |types| ==> types[i] != "" && IsKnownName(types[i])
    ensures r.Ok? ==> |r.value| == |types| && forall i :: 0 <= i < |types| ==> Name(r.value[i]) == types[i]
    decreases |types|
  {
    if |types| == 0 then Ok([])
    else
      var t := Parse(types[0]);
      ParseComplete(types[0]);
      if t.None? || types[0] == "" then Err(RaisedString)
      else
        var rest :- ParseTypes(types[1..]);
        Ok([t.value] + rest)
  }

  /** The table keys of the given types, in order. */
  function NameList(types: seq<DocType>): (names: seq<string>)
    ensures |names| == |types| && forall i :: 0 <= i < |types| ==> names[i] == Name(types[i])
  {
    seq(|types|, i requires 0 <= i < |types| => Name(types[i]))
  }

  /** Parsing the names of any list of table entries gives back that list. */
  lemma {:induction false} ParseTypesNames(types: seq<DocType>)
    ensures ParseTypes(NameList(types)) == Ok(types)
    decreases |types|
  {
    if |types| > 0 {
      var names := NameList(types);
      ParseName(types[0]);
      NameNonEmpty(types[0]);
      assert Parse(names[0]) == Some(types[0]) && names[0] != "";
      assert names[1..] == NameList(types[1..]);
      ParseTypesNames(types[1..]);
      assert ParseTypes(names) == Ok([types[0]] + types[1..]);
      assert [types[0]] + types[1..] == types;
    }
  }

  /**
   * `getInfoType`: an empty list, an empty name or a name the table lacks
   * reaches a `raise` of a plain string (a TypeError); otherwise the list is
   * stored as given, here as the table entries it names.
   */
  function GetInfoType(types: seq<string>): (r: Outcome<seq<DocType>>)
    ensures |types| == 0 ==> r == Err(RaisedString)
    ensures r.Err? ==> r.error == RaisedString
    ensures r.Ok? <==> |types| > 0 && forall i :: 0 <= i < |types| ==> types[i] != "" && IsKnownName(types[i])
    ensures r.Ok? ==> |r.value| == |types| && forall i :: 0 <= i < |types| ==> Name(r.value[i]) == types[i]
  {
    if |types| == 0 then Err(RaisedString) else ParseTypes(types)
  }

  /** The set of names of the given types. */
  function Names(types: seq<DocType>): set<string>
  {
    set t | t in types :: Name(t)
  }

  /**
   * Runs `f` on each type in order and stores each value under the type's
   * name; the first failure ends the run with that failure.
   */
  function Collect(types: seq<DocType>, f: DocType -> Outcome<Value>): (r: Outcome<map<string, Value>>)
    ensures r.Ok? <==> forall i :: 0 <= i < |types| ==> f(types[i]).Ok?
    ensures r.Ok? ==> r.value.Keys == Names(types)
    ensures r.Ok? ==> forall t :: t in types ==> f(t) == Ok(r.value[Name(t)])
    ensures r.Err? ==>
      exists i :: 0 <= i < |types| && f(types[i]) == Err(r.error) && forall j :: 0 <= j < i ==> f(types[j]).Ok?
    decreases |types|
  {
    if |types| == 0 then Ok(map[])
    else
      var v :- f(types[0]);
      var rest :- Collect(types[1..], f);
      forall a, b ensures Name(a) == Name(b) ==> a == b {
        NameInjective(a, b);
      }
      MergeStep(types, Name, f, v, rest);
      Ok(map[Name(types[0]) := v] + rest)
  }

  /**
   * `getJsonbyTypeList`: for each stored type in order, fetch its document and
   * store the handler's value under the type's name; the first handler that
   * raises ends the call with its exception.
   */
  function GetJsonByTypeList(uid: string, types: seq<DocType>, fetch: string -> Json): (r: Outcome<map<string, Value>>)
    ensures r.Ok? <==> forall i :: 0 <= i < |types| ==> Handler(types[i], uid, fetch(Url(uid, types[i]))).Ok?
    ensures r.Ok? ==> r.value.Keys == Names(types)
    ensures r.Ok? ==> forall t :: t in types ==> Handler(t, uid, fetch(Url(uid, t))) == Ok(r.value[Name(t)])
    ensures r.Err? ==>
      exists i :: 0 <= i < |types| && Handler(types[i], uid, fetch(Url(uid, types[i]))) == Err(r.error) &&
        forall j :: 0 <= j < i ==> Handler(types[j], uid, fetch(Url(uid, types[j]))).Ok?
  {
    Collect(types, t => Handler(t, uid, fetch(Url(uid, t))))
  }

  /**
   * Adding the first entry's value in front of the dict built for the rest
   * keeps every entry's value under its key, when keys identify entries.
   */
  lemma MergeStep<T, V>(xs: seq<T>, key: T -> string, f: T -> Outcome<V>, v: V, rest: map<string, V>)
    requires |xs| > 0 && f(xs[0]) == Ok(v)
    requires forall a, b :: key(a) == key(b) ==> a == b
    requires rest.Keys == set t | t in xs[1..] :: key(t)
    requires forall t :: t in xs[1..] ==> f(t) == Ok(rest[key(t)])
    ensures (map[key(xs[0]) := v] + rest).Keys == set t | t in xs :: key(t)
    ensures forall t :: t in xs ==> f(t) == Ok((map[key(xs[0]) := v] + rest)[key(t)])
  {
    assert forall t :: t in xs <==> t == xs[0] || t in xs[1..];
  }
}

=== FILE: crawl.dfy ===
/**
 * The crawl driver: for every material of the database, request the three
 * documents the crawl needs, rename the collected values to the output
 * record's keys and write the record; a material whose documents fail the
 * dict check is counted as invalid and skipped, any other exception ends
 * the crawl.
 */
module Crawl {
  import opened Wrappers
  import opened Json
  import opened Values
  import opened DocTypes
  import opened Extractors
  import opened Assembler

  /** The type list the crawl stores on each client, in order. */
  const TypeNames: seq<string> :=
    ["results-asr.database.material_fingerprint.json", "results-asr.structureinfo.json", "results-asr.bandstructure.json"]

  /** The table entries those names select. */
  const CrawlTypes: seq<DocType> := [MaterialFingerprint, StructureInfo, BandStructure]

  /** The output record's keys, in order, each with the type name whose value it takes. */
  const JsonKeys: seq<(string, string)> :=
    [("uid", TypeNames[0]), ("structure", TypeNames[1]), ("bands", TypeNames[2])]

  /** The crawl's type names are the table keys of the crawl's types. */
  lemma TypeNamesAreNames()
    ensures TypeNames == NameList(CrawlTypes)
    ensures TypeNames[0] == Name(MaterialFingerprint) && TypeNames[1] == Name(StructureInfo) && TypeNames[2] == Name(BandStructure)
  {
  }

  /** The crawl's type list passes `getInfoType` and selects the fingerprint, structure-info and band-structure entries. */
  lemma TypeListParses()
    ensures GetInfoType(TypeNames) == Ok(CrawlTypes)
  {
    TypeNamesAreNames();
    ParseTypesNames(CrawlTypes);
  }

  /** Name of the file a material's record is written to. */
  function FileName(uid: string): string
  {
    "c2db_" + uid + ".json"
  }

  /** Distinct materials are written to distinct files. */
  lemma FileNameInjective(a: string, b: string)
    ensures FileName(a) == FileName(b) ==> a == b
  {
    if FileName(a) == FileName(b) {
      ConcatCancel("c2db_", a, b, ".json");
    }
  }

  /**
   * The record under its output keys: for each pair in order, the value
   * stored under the pair's type name is put under the pair's key, a later
   * pair overwriting an earlier one with the same key; the first name the
   * dict lacks raises KeyError with that name.
   */
  function Rename(pairs: seq<(string, string)>, d: map<string, Value>): (r: Outcome<map<string, Value>>)
    ensures r.Ok? <==> forall i :: 0 <= i < |pairs| ==> pairs[i].1 in d
    ensures r.Ok? ==> r.value.Keys == set i | 0 <= i < |pairs| :: pairs[i].0
    ensures r.Ok? ==>
      forall i :: 0 <= i < |pairs| && (forall j :: i < j < |pairs| ==> pairs[j].0 != pairs[i].0) ==>
        r.value[pairs[i].0] == d[pairs[i].1]
    ensures r.Err? ==>
      exists i :: 0 <= i < |pairs| && pairs[i].1 !in d && r.error == KeyError(Str(pairs[i].1)) &&
        forall j :: 0 <= j < i ==> pairs[j].1 in d
    decreases |pairs|
  {
    if |pairs| == 0 then Ok(map[])
    else
      var (k, name) := pairs[0];
      if name !in d then Err(KeyError(Str(name)))
      else
        var rest :- Rename(pairs[1..], d);
        RenameStep(pairs, d, rest);
        Ok(map[k := d[name]] + rest)
  }

  /** The first pair added in front of the record of the remaining pairs. */
  lemma RenameStep(pairs: seq<(string, string)>, d: map<string, Value>, rest: map<string, Value>)
    requires |pairs| > 0 && pairs[0].1 in d
    requires forall i :: 0 <= i < |pairs[1..]| ==> pairs[1..][i].1 in d
    requires rest.Keys == set i | 0 <= i < |pairs[1..]| :: pairs[1..][i].0
    requires forall i :: 0 <= i < |pairs[1..]| && (forall j :: i < j < |pairs[1..]| ==> pairs[1..][j].0 != pairs[1..][i].0) ==>
      rest[pairs[1..][i].0] == d[pairs[1..][i].1]
    ensures forall i :: 0 <= i < |pairs| ==> pairs[i].1 in d
    ensures (map[pairs[0].0 := d[pairs[0].1]] + rest).Keys == set i | 0 <= i < |pairs| :: pairs[i].0
    ensures forall i :: 0 <= i < |pairs| && (forall j :: i < j < |pairs| ==> pairs[j].0 != pairs[i].0) ==>
      (map[pairs[0].0 := d[pairs[0].1]] + rest)[pairs[i].0] == d[pairs[i].1]
  {
    assert forall i :: 1 <= i < |pairs| ==> pairs[i] == pairs[1..][i - 1];
  }

  /**
   * The output record built from the collected dict: `uid`, `structure` and
   * `bands` take the values of the fingerprint, structure-info and
   * band-structure documents.
   */
  function BuildRecord(d: map<string, Value>): (r: Outcome<map<string, Value>>)
    ensures r.Ok? <==> TypeNames[0] in d && TypeNames[1] in d && TypeNames[2] in d
    ensures r.Ok? ==> r.value.Keys == {"uid", "structure", "bands"}
    ensures r.Ok? ==> r.value["uid"] == d[TypeNames[0]] && r.value["structure"] == d[TypeNames[1]] && r.value["bands"] == d[TypeNames[2]]
    ensures r.Err? ==> exists i :: 0 <= i < 3 && TypeNames[i] !in d && r.error == KeyError(Str(TypeNames[i]))
  {
    var r := Rename(JsonKeys, d);
    assert forall i :: 0 <= i < 3 ==> JsonKeys[i].1 == TypeNames[i];
    assert (set i | 0 <= i < |JsonKeys| :: JsonKeys[i].0) == {"uid", "structure", "bands"} by {
      assert JsonKeys[0].0 == "uid" && JsonKeys[1].0 == "structure" && JsonKeys[2].0 == "bands";
    }
    r
  }

  /** The dict collected for the crawl's types always has the three names the record reads. */
  lemma RecordFromCollected(d: map<string, Value>)
    requires d.Keys == Names(CrawlTypes)
    ensures BuildRecord(d).Ok?
  {
    TypeNamesAreNames();
    assert forall i :: 0 <= i < 3 ==> Name(CrawlTypes[i]) in Names(CrawlTypes);
  }

  /** A written file: its name and the JSON text's value. */
  datatype OutputFile = OutputFile(name: string, contents: Json)

  /** What the loop body does with one material. */
  datatype UidOutcome =
    | Saved(file: OutputFile)   // the record was written and counted
    | Skipped                   // an AssertionError: the uid joins the invalid list
    | Crashed(error: Failure)   // any other exception leaves the loop and the program

  /** The document the crawl fetches for one entry of one material. */
  function Fetched(uid: string, t: DocType, fetch: string -> Json): Json
  {
    fetch(Url(uid, t))
  }

  /** The values collected for one material, gathered from the crawl's types. */
  function Collected(uid: string, fetch: string -> Json): Outcome<map<string, Value>>
  {
    GetJsonByTypeList(uid, CrawlTypes, fetch)
  }

  /**
   * The loop body after collection: an AssertionError is caught and the
   * material skipped; any other exception, including a KeyError while the
   * record is built, escapes; otherwise the record is written to the
   * material's file.
   */
  function Finish(uid: string, collected: Outcome<map<string, Value>>): (r: UidOutcome)
    ensures r.Crashed? ==> !Absorbed(r.error)
    ensures r.Skipped? <==> collected == Err(AssertionError)
    ensures collected.Err? && !Absorbed(collected.error) ==> r == Crashed(collected.error)
    ensures r.Saved? <==> collected.Ok? && BuildRecord(collected.value).Ok?
    ensures r.Saved? ==>
      && r.file.name == FileName(uid)
      && r.file.contents == Serialize(Dict(BuildRecord(collected.value).value))
      && r.file.contents.Obj? && r.file.contents.fields.Keys == {"uid", "structure", "bands"}
  {
    match collected
    case Err(e) => if Absorbed(e) then Skipped else Crashed(e)
    case Ok(d) =>
      match BuildRecord(d)
      case Err(e) => Crashed(e)
      case Ok(record) => Saved(OutputFile(FileName(uid), Serialize(Dict(record))))
  }

  /**
   * One iteration of the loop: a fresh client stores the type list (which
   * always passes the check), collects the documents' values and finishes;
   * the record can always be built from what was collected.
   */
  function ProcessUid(uid: string, fetch: string -> Json): (r: UidOutcome)
    ensures r == Finish(uid, Collected(uid, fetch))
    ensures r.Saved? <==> Collected(uid, fetch).Ok?
    ensures r.Crashed? ==> Collected(uid, fetch) == Err(r.error)
  {
    TypeListParses();
    match GetInfoType(TypeNames)
    case Err(e) => Crashed(e)
    case Ok(types) =>
      var collected := GetJsonByTypeList(uid, types, fetch);
      if collected.Ok? then RecordFromCollected(collected.value); Finish(uid, collected)
      else Finish(uid, collected)
  }

  /** Every one of the crawl's extractors succeeds on the document fetched for it. */
  predicate Extracted(uid: string, fetch: string -> Json)
  {
    forall t :: t in CrawlTypes ==> Handler(t, uid, Fetched(uid, t, fetch)).Ok?
  }

  /** A material is written exactly when all three of its extractors succeed. */
  lemma SavedExactly(uid: string, fetch: string -> Json)
    ensures ProcessUid(uid, fetch).Saved? <==> Extracted(uid, fetch)
  {
    var c := Collected(uid, fetch);
    assert ProcessUid(uid, fetch).Saved? <==> c.Ok?;
    assert c.Ok? <==> forall i :: 0 <= i < |CrawlTypes| ==> Handler(CrawlTypes[i], uid, Fetched(uid, CrawlTypes[i], fetch)).Ok?;
  }

  /** The fields of a written record, as the record dict built from the collected values gives them. */
  lemma SavedFields(uid: string, fetch: string -> Json)
    requires Extracted(uid, fetch)
    ensures ProcessUid(uid, fetch).Saved? && Collected(uid, fetch).Ok?
    ensures var f := ProcessUid(uid, fetch).file.contents.fields;
      var d := Collected(uid, fetch).value;
      && TypeNames[0] in d && TypeNames[1] in d && TypeNames[2] in d
      && f["uid"] == Serialize(d[TypeNames[0]])
      && f["structure"] == Serialize(d[TypeNames[1]])
      && f["bands"] == Serialize(d[TypeNames[2]])
  {
    SavedExactly(uid, fetch);
    var d := Collected(uid, fetch).value;
    var record := BuildRecord(d).value;
    assert ProcessUid(uid, fetch).file.contents == Serialize(Dict(record));
  }

  /** When all extractors succeed, the written `uid` is the string the fingerprint extractor returned for the material's document. */
  lemma SavedUid(uid: string, fetch: string -> Json)
    requires Extracted(uid, fetch)
    ensures var fp := ExtractFingerprint(uid, Fetched(uid, MaterialFingerprint, fetch));
      && ProcessUid(uid, fetch).Saved?
      && fp.Ok? && ProcessUid(uid, fetch).file.contents.fields["uid"] == Str(fp.value)
  {
    SavedFields(uid, fetch);
    CollectedValue(uid, fetch, MaterialFingerprint);
    TypeNamesAreNames();
    var v := Collected(uid, fetch).value[TypeNames[0]];
    var fp := ExtractFingerprint(uid, Fetched(uid, MaterialFingerprint, fetch));
    assert Handler(MaterialFingerprint, uid, Fetched(uid, MaterialFingerprint, fetch)) == Ok(v);
    assert fp.Ok? && v == Doc(Str(fp.value));
  }

  /** When all extractors succeed, the written `structure` is the serialized dict of the structure-info extractor. */
  lemma SavedStructure(uid: string, fetch: string -> Json)
    requires Extracted(uid, fetch)
    ensures var si := ExtractStructureInfo(Fetched(uid, StructureInfo, fetch));
      && ProcessUid(uid, fetch).Saved?
      && si.Ok? && ProcessUid(uid, fetch).file.contents.fields["structure"] == Serialize(si.value)
  {
    SavedFields(uid, fetch);
    CollectedValue(uid, fetch, StructureInfo);
    TypeNamesAreNames();
    HandlerDispatch(StructureInfo, uid, Fetched(uid, StructureInfo, fetch));
  }

  /** When all extractors succeed, the written `bands` is the serialized dict of the band-structure extractor. */
  lemma SavedBands(uid: string, fetch: string -> Json)
    requires Extracted(uid, fetch)
    ensures var bs := ExtractBands(Fetched(uid, BandStructure, fetch));
      && ProcessUid(uid, fetch).Saved?
      && bs.Ok? && ProcessUid(uid, fetch).file.contents.fields["bands"] == Serialize(bs.value)
  {
    SavedFields(uid, fetch);
    CollectedValue(uid, fetch, BandStructure);
    TypeNamesAreNames();
    HandlerDispatch(BandStructure, uid, Fetched(uid, BandStructure, fetch));
  }

  /** Each of the crawl's types contributes its handler's value under its table key. */
  lemma CollectedValue(uid: string, fetch: string -> Json, t: DocType)
    requires Collected(uid, fetch).Ok? && t in CrawlTypes
    ensures Handler(t, uid, Fetched(uid, t, fetch)) == Ok(Collected(uid, fetch).value[Name(t)])
  {
  }

  /**
   * A material is skipped exactly when the first of its three documents
   * whose handler fails is not a dict: every one of the crawl's extractors
   * starts with the dict check, and nothing else raises AssertionError.
   */
  lemma SkippedExactly(uid: string, fetch: string -> Json)
    ensures ProcessUid(uid, fetch).Skipped? <==>
      exists i :: 0 <= i < 3 && !Fetched(uid, CrawlTypes[i], fetch).Obj? &&
        forall j :: 0 <= j < i ==> Handler(CrawlTypes[j], uid, Fetched(uid, CrawlTypes[j], fetch)).Ok?
  {
    var hs := HandlerOutcomes(uid, fetch);
    var bad := seq(3, i requires 0 <= i < 3 => !Fetched(uid, CrawlTypes[i], fetch).Obj?);
    HandlerAssertions(uid, fetch);
    var c := Collected(uid, fetch);
    assert ProcessUid(uid, fetch).Skipped? <==> c == Err(AssertionError);
    if c.Err? {
      CollectedFirstError(uid, fetch);
      FirstErrorAbsorbed(hs, bad, c.error);
    }
  }

  /** What the three handlers of the crawl return on the documents fetched for them, in order. */
  function HandlerOutcomes(uid: string, fetch: string -> Json): (hs: seq<Outcome<Value>>)
    ensures |hs| == 3
    ensures forall i :: 0 <= i < 3 ==> hs[i] == Handler(CrawlTypes[i], uid, Fetched(uid, CrawlTypes[i], fetch))
  {
    seq(3, i requires 0 <= i < 3 => Handler(CrawlTypes[i], uid, Fetched(uid, CrawlTypes[i], fetch)))
  }

  /** A handler of the crawl raises AssertionError exactly on a document that is not a dict. */
  lemma HandlerAssertions(uid: string, fetch: string -> Json)
    ensures forall i :: 0 <= i < 3 ==>
      (HandlerOutcomes(uid, fetch)[i] == Err(AssertionError) <==> !Fetched(uid, CrawlTypes[i], fetch).Obj?)
  {
  }

  /** A failed collection fails with the error of the first handler that fails. */
  lemma CollectedFirstError(uid: string, fetch: string -> Json)
    requires Collected(uid, fetch).Err?
    ensures exists k ::
              && 0 <= k < 3
              && HandlerOutcomes(uid, fetch)[k] == Err(Collected(uid, fetch).error)
              && forall j :: 0 <= j < k ==> HandlerOutcomes(uid, fetch)[j].Ok?
  {
    var hs := HandlerOutcomes(uid, fetch);
    var c := Collected(uid, fetch);
    var k :| 0 <= k < 3 && Handler(CrawlTypes[k], uid, fetch(Url(uid, CrawlTypes[k]))) == Err(c.error) &&
      forall j :: 0 <= j < k ==> Handler(CrawlTypes[j], uid, fetch(Url(uid, CrawlTypes[j]))).Ok?;
    assert hs[k] == Err(c.error);
    assert forall j :: 0 <= j < k ==> hs[j].Ok?;
  }

  /**
   * Among outcomes tried in order, the first error is AssertionError exactly
   * when some position marked `bad` comes with every earlier outcome a success,
   * given that the AssertionErrors are exactly the `bad` positions.
   */
  lemma FirstErrorAbsorbed<T>(hs: seq<Outcome<T>>, bad: seq<bool>, err: Failure)
    requires |bad| == |hs|
    requires forall i :: 0 <= i < |hs| ==> (hs[i] == Err(AssertionError) <==> bad[i])
    requires exists k :: 0 <= k < |hs| && hs[k] == Err(err) && forall j :: 0 <= j < k ==> hs[j].Ok?
    ensures Absorbed(err) <==> exists i :: 0 <= i < |hs| && bad[i] && forall j :: 0 <= j < i ==> hs[j].Ok?
  {
  }

  // ---------------------------------------------------------------------------
  // The loop over the database rows

  /** The loop's counters: records written, materials skipped, the skipped uids and the written files, in order. */
  datatype CrawlState = CrawlState(count: nat, invalid: nat, invalidList: seq<string>, written: seq<OutputFile>)

  /** How the program ends: after the last row, or with the exception one row raised. */
  datatype CrawlResult =
    | Finished(state: CrawlState)
    | Aborted(state: CrawlState, uid: string, error: Failure)

  /** The counters before the first row. */
  const Start: CrawlState := CrawlState(0, 0, [], [])

  /** Each counter agrees with the list it counts. */
  predicate Consistent(st: CrawlState)
  {
    st.count == |st.written| && st.invalid == |st.invalidList|
  }

  /** The loop body as a function of the uid alone. */
  function Process(fetch: string -> Json): string -> UidOutcome
  {
    u => ProcessUid(u, fetch)
  }

  /** The loop from the given counters over the remaining uids. */
  function CrawlFrom(st: CrawlState, uids: seq<string>, process: string -> UidOutcome): (r: CrawlResult)
    ensures Consistent(st) ==> Consistent(r.state)
    ensures r.Finished? ==> r.state.count + r.state.invalid == st.count + st.invalid + |uids|
    ensures r.Aborted? ==> r.uid in uids && process(r.uid) == Crashed(r.error)
    ensures st.invalidList <= r.state.invalidList && st.written <= r.state.written
    decreases |uids|
  {
    if |uids| == 0 then Finished(st)
    else
      var uid := uids[0];
      match process(uid)
      case Crashed(e) => Aborted(st, uid, e)
      case Skipped =>
        CrawlFrom(CrawlState(st.count, st.invalid + 1, st.invalidList + [uid], st.written), uids[1..], process)
      case Saved(file) =>
        CrawlFrom(CrawlState(st.count + 1, st.invalid, st.invalidList, st.written + [file]), uids[1..], process)
  }

  /**
   * The crawl over the database's uids in order: a Finished crawl has
   * counted every uid once, as a written record or an invalid one; an
   * Aborted one stops at a uid whose exception the loop does not catch.
   */
  function Crawl(uids: seq<string>, fetch: string -> Json): (r: CrawlResult)
    ensures Consistent(r.state)
    ensures r.Finished? ==> r.state.count + r.state.invalid == |uids|
    ensures r.Aborted? ==> r.uid in uids && ProcessUid(r.uid, fetch) == Crashed(r.error) && !Absorbed(r.error)
  {
    CrawlFrom(Start, uids, Process(fetch))
  }

  // Reference definitions, one material at a time.

  /** The uids skipped as invalid, in order. */
  function SkippedUids(uids: seq<string>, process: string -> UidOutcome): seq<string>
    decreases |uids|
  {
    if |uids| == 0 then []
    else (if process(uids[0]).Skipped? then [uids[0]] else []) + SkippedUids(uids[1..], process)
  }

  /** The files written, in order. */
  function SavedFiles(uids: seq<string>, process: string -> UidOutcome): seq<OutputFile>
    decreases |uids|
  {
    if |uids| == 0 then []
    else
      var o := process(uids[0]);
      (if o.Saved? then [o.file] else []) + SavedFiles(uids[1..], process)
  }

  /** Position of the first uid whose processing raises an uncaught exception. */
  function FirstCrash(uids: seq<string>, process: string -> UidOutcome): (r: Option<nat>)
    ensures r.Some? ==> r.value < |uids| && process(uids[r.value]).Crashed?
    ensures r.Some? ==> forall j :: 0 <= j < r.value ==> !process(uids[j]).Crashed?
    ensures r.None? ==> forall j :: 0 <= j < |uids| ==> !process(uids[j]).Crashed?
    decreases |uids|
  {
    if |uids| == 0 then None
    else if process(uids[0]).Crashed? then Some(0)
    else
      match FirstCrash(uids[1..], process)
      case None => None
      case Some(i) => Some(i + 1)
  }

  /** The counters after processing every given uid, none of which crashes. */
  function Summary(uids: seq<string>, process: string -> UidOutcome): CrawlState
  {
    var skipped := SkippedUids(uids, process);
    var saved := SavedFiles(uids, process);
    CrawlState(|saved|, |skipped|, skipped, saved)
  }

  /** Counters `a` followed by the counters `b` of a later stretch of rows. */
  function Combine(a: CrawlState, b: CrawlState): CrawlState
  {
    CrawlState(a.count + b.count, a.invalid + b.invalid, a.invalidList + b.invalidList, a.written + b.written)
  }

  /**
   * The reference outcome of the loop from `st`: it finishes with the
   * summary of all uids appended when none crashes, and otherwise aborts at
   * the first crash with only the earlier uids appended.
   */
  function Reference(st: CrawlState, uids: seq<string>, process: string -> UidOutcome): CrawlResult
  {
    match FirstCrash(uids, process)
    case None => Finished(Combine(st, Summary(uids, process)))
    case Some(i) => Aborted(Combine(st, Summary(uids[..i], process)), uids[i], process(uids[i]).error)
  }

  /** The loop from any counters agrees with the reference outcome. */
  lemma {:induction false} CrawlFromSpec(st: CrawlState, uids: seq<string>, process: string -> UidOutcome)
    ensures CrawlFrom(st, uids, process) == Reference(st, uids, process)
    decreases |uids|
  {
    if |uids| == 0 {
      assert Combine(st, Summary(uids, process)) == st;
    } else {
      var o := process(uids[0]);
      if o.Crashed? {
        assert uids[..0] == [];
        assert Combine(st, Summary(uids[..0], process)) == st;
      } else {
        var next := if o.Skipped? then CrawlState(st.count, st.invalid + 1, st.invalidList + [uids[0]], st.written)
                    else CrawlState(st.count + 1, st.invalid, st.invalidList, st.written + [o.file]);
        assert CrawlFrom(st, uids, process) == CrawlFrom(next, uids[1..], process);
        CrawlFromSpec(next, uids[1..], process);
        ReferenceStep(st, next, uids, process);
      }
    }
  }

  /** The reference outcome after a first uid that does not crash is the reference outcome of the rest from the updated counters. */
  lemma ReferenceStep(st: CrawlState, next: CrawlState, uids: seq<string>, process: string -> UidOutcome)
    requires |uids| > 0 && !process(uids[0]).Crashed?
    requires process(uids[0]).Skipped? ==> next == CrawlState(st.count, st.invalid + 1, st.invalidList + [uids[0]], st.written)
    requires process(uids[0]).Saved? ==> next == CrawlState(st.count + 1, st.invalid, st.invalidList, st.written + [process(uids[0]).file])
    ensures Reference(next, uids[1..], process) == Reference(st, uids, process)
  {
    match FirstCrash(uids[1..], process)
    case None =>
      CombineStep(st, next, uids, uids, process);
    case Some(i) =>
      assert uids[..i + 1][1..] == uids[1..][..i];
      assert uids[..i + 1][0] == uids[0];
      CombineStep(st, next, uids, uids[..i + 1], process);
  }

  /** Processing the first uid and then the rest gives the same counters as the whole stretch. */
  lemma CombineStep(st: CrawlState, next: CrawlState, uids: seq<string>, prefix: seq<string>, process: string -> UidOutcome)
    requires |prefix| > 0 && |uids| > 0 && prefix[0] == uids[0]
    requires process(uids[0]).Skipped? ==> next == CrawlState(st.count, st.invalid + 1, st.invalidList + [uids[0]], st.written)
    requires process(uids[0]).Saved? ==> next == CrawlState(st.count + 1, st.invalid, st.invalidList, st.written + [process(uids[0]).file])
    requires !process(uids[0]).Crashed?
    ensures Combine(next, Summary(prefix[1..], process)) == Combine(st, Summary(prefix, process))
  {
    var o := process(uids[0]);
    var rest := Summary(prefix[1..], process);
    if o.Skipped? {
      assert st.invalidList + [uids[0]] + rest.invalidList == st.invalidList + ([uids[0]] + rest.invalidList);
    } else {
      assert st.written + [o.file] + rest.written == st.written + ([o.file] + rest.written);
    }
  }

  /** From the initial counters, the loop is exactly the reference summary. */
  lemma StartSpec(uids: seq<string>, process: string -> UidOutcome)
    ensures CrawlFrom(Start, uids, process) ==
      match FirstCrash(uids, process)
      case None => Finished(Summary(uids, process))
      case Some(i) => Aborted(Summary(uids[..i], process), uids[i], process(uids[i]).error)
  {
    CrawlFromSpec(Start, uids, process);
    match FirstCrash(uids, process)
    case None => assert Combine(Start, Summary(uids, process)) == Summary(uids, process);
    case Some(i) => assert Combine(Start, Summary(uids[..i], process)) == Summary(uids[..i], process);
  }

  /**
   * The crawl finishes exactly when no uid raises an uncaught exception; the
   * invalid list and the written files are then those of all uids, and
   * otherwise those of the uids before the first that raises.
   */
  lemma CrawlSpec(uids: seq<string>, fetch: string -> Json)
    ensures Crawl(uids, fetch).Finished? <==> FirstCrash(uids, Process(fetch)).None?
    ensures Crawl(uids, fetch).Finished? ==> Crawl(uids, fetch).state == Summary(uids, Process(fetch))
    ensures Crawl(uids, fetch).Aborted? ==>
      var i := FirstCrash(uids, Process(fetch)).value;
      Crawl(uids, fetch) == Aborted(Summary(uids[..i], Process(fetch)), uids[i], ProcessUid(uids[i], fetch).error)
  {
    StartSpec(uids, Process(fetch));
  }

  /** The invalid list holds exactly the skipped uids, each in the position of its row. */
  lemma {:induction false} SkippedUidsMembers(uids: seq<string>, process: string -> UidOutcome, u: string)
    ensures u in SkippedUids(uids, process) <==> u in uids && process(u).Skipped?
    decreases |uids|
  {
    if |uids| > 0 {
      SkippedUidsMembers(uids[1..], process, u);
      assert u in uids <==> u == uids[0] || u in uids[1..];
    }
  }

  /** The written files are exactly the files of the saved uids, and each is named after its uid. */
  lemma {:induction false} SavedFilesMembers(uids: seq<string>, process: string -> UidOutcome, f: OutputFile)
    ensures f in SavedFiles(uids, process) <==> exists u :: u in uids && process(u) == Saved(f)
    decreases |uids|
  {
    if |uids| > 0 {
      SavedFilesMembers(uids[1..], process, f);
      assert forall u :: u in uids <==> u == uids[0] || u in uids[1..];
    }
  }

  /** Every file the crawl writes is named after one of the crawl's uids. */
  lemma SavedFileNames(uids: seq<string>, fetch: string -> Json, f: OutputFile)
    requires f in SavedFiles(uids, Process(fetch))
    ensures exists u :: u in uids && f.name == FileName(u)
  {
    SavedFilesMembers(uids, Process(fetch), f);
    var u :| u in uids && Process(fetch)(u) == Saved(f);
    assert ProcessUid(u, fetch) == Saved(f);
  }
}

=== FILE: doctypes.dfy ===
/**
 * The closed table of C2DB document types a material row offers, each named
 * by the file name that appears in its URL.
 */
module DocTypes {
  import opened Wrappers

  datatype DocType =
    | Info
    | Bader
    | BandStructure
    | BandStructureCalculate
    | ConvexHull
    | MaterialFingerprint
    | Exchange
    | ExchangeCalculate
    | Gs
    | GsCalculate
    | MagneticAnisotropy
    | Magstate
    | Pdos
    | PdosCalculate
    | Phonons
    | PhononsCalculate
    | PlasmaFrequency
    | PlasmaFrequencyCalculate
    | Polarizability
    | ProjectedBandStructure
    | Relax
    | SetInfo
    | SetupReduce
    | SetupStrains
    | Stiffness
    | StructureInfo
    | Structure

  /** The key of the type in the dispatch table, which is also its URL segment. */
  function Name(t: DocType): string
  {
    match t
    case Info => "info.json"
    case Bader => "results-asr.bader.json"
    case BandStructure => "results-asr.bandstructure.json"
    case BandStructureCalculate => "results-asr.bandstructure@calculate.json"
    case ConvexHull => "results-asr.convex_hull.json"
    case MaterialFingerprint => "results-asr.database.material_fingerprint.json"
    case Exchange => "results-asr.exchange.json"
    case ExchangeCalculate => "results-asr.exchange@calculate.json"
    case Gs => "results-asr.gs.json"
    case GsCalculate => "results-asr.gs@calculate.json"
    case MagneticAnisotropy => "results-asr.magnetic_anisotropy.json"
    case Magstate => "results-asr.magstate.json"
    case Pdos => "results-asr.pdos.json"
    case PdosCalculate => "results-asr.pdos@calculate.json"
    case Phonons => "results-asr.phonons.json"
    case PhononsCalculate => "results-asr.phonons@calculate.json"
    case PlasmaFrequency => "results-asr.plasmafrequency.json"
    case PlasmaFrequencyCalculate => "results-asr.plasmafrequency@calculate.json"
    case Polarizability => "results-asr.polarizability.json"
    case ProjectedBandStructure => "results-asr.projected_bandstructure.json"
    case Relax => "results-asr.relax.json"
    case SetInfo => "results-asr.setinfo.json"
    case SetupReduce => "results-asr.setup.reduce.json"
    case SetupStrains => "results-asr.setup.strains.json"
    case Stiffness => "results-asr.stiffness.json"
    case StructureInfo => "results-asr.structureinfo.json"
    case Structure => "structure.json"
  }

  /** The table's entries in the order they are written down. */
  const AllTypes: seq<DocType> := [
    Info, Bader, BandStructure, BandStructureCalculate, ConvexHull,
    MaterialFingerprint, Exchange, ExchangeCalculate, Gs, GsCalculate,
    MagneticAnisotropy, Magstate, Pdos, PdosCalculate, Phonons,
    PhononsCalculate, PlasmaFrequency, PlasmaFrequencyCalculate, Polarizability,
    ProjectedBandStructure, Relax, SetInfo, SetupReduce, SetupStrains,
    Stiffness, StructureInfo, Structure
  ]

  /** `s` is a key of the dispatch table. */
  ghost predicate IsKnownName(s: string) {
    exists t :: Name(t) == s
  }

  /**
   * The only entry whose key could be `s`, read off its length and, where two
   * keys share a length, off the first character after the common
   * `results-asr.` prefix where they differ.
   */
  function Candidate(s: string): Option<DocType>
  {
    match |s|
    case 9 => Some(Info)
    case 14 => Some(Structure)
    case 19 => Some(Gs)
    case 21 => Some(Pdos)
    case 22 => if s[12] == 'b' then Some(Bader) else Some(Relax)
    case 24 => if s[12] == 'p' then Some(Phonons) else Some(SetInfo)
    case 25 => if s[12] == 'e' then Some(Exchange) else Some(Magstate)
    case 26 => Some(Stiffness)
    case 28 => Some(ConvexHull)
    case 29 => if s[12] == 'g' then Some(GsCalculate) else Some(SetupReduce)
    case 30 =>
      if s[12] == 'b' then Some(BandStructure)
      else if s[13] == 'e' then Some(SetupStrains)
      else Some(StructureInfo)
    case 31 => if s[13] == 'd' then Some(PdosCalculate) else Some(Polarizability)
    case 32 => Some(PlasmaFrequency)
    case 34 => Some(PhononsCalculate)
    case 35 => Some(ExchangeCalculate)
    case 36 => Some(MagneticAnisotropy)
    case 40 => if s[12] == 'b' then Some(BandStructureCalculate) else Some(ProjectedBandStructure)
    case 42 => Some(PlasmaFrequencyCalculate)
    case 46 => Some(MaterialFingerprint)
    case _ => None
  }

  /**
   * The table lookup `s in table`, returning the entry found: the one
   * candidate key is compared with `s` in full.
   */
  function Parse(s: string): (r: Option<DocType>)
    ensures r.Some? ==> Name(r.value) == s
  {
    match Candidate(s)
    case Some(t) => if s == Name(t) then Some(t) else None
    case None => None
  }

  /** Every key leads back to its own entry. */
  lemma CandidateName(t: DocType)
    ensures Candidate(Name(t)) == Some(t)
  {
    match t
    case Info => CandidateInfo();
    case Bader => CandidateBader();
    case BandStructure => CandidateBandStructure();
    case BandStructureCalculate => CandidateBandStructureCalculate();
    case ConvexHull => CandidateConvexHull();
    case MaterialFingerprint => CandidateMaterialFingerprint();
    case Exchange => CandidateExchange();
    case ExchangeCalculate => CandidateExchangeCalculate();
    case Gs => CandidateGs();
    case GsCalculate => CandidateGsCalculate();
    case MagneticAnisotropy => CandidateMagneticAnisotropy();
    case Magstate => CandidateMagstate();
    case Pdos => CandidatePdos();
    case PdosCalculate => CandidatePdosCalculate();
    case Phonons => CandidatePhonons();
    case PhononsCalculate => CandidatePhononsCalculate();
    case PlasmaFrequency => CandidatePlasmaFrequency();
    case PlasmaFrequencyCalculate => CandidatePlasmaFrequencyCalculate();
    case Polarizability => CandidatePolarizability();
    case ProjectedBandStructure => CandidateProjectedBandStructure();
    case Relax => CandidateRelax();
    case SetInfo => CandidateSetInfo();
    case SetupReduce => CandidateSetupReduce();
    case SetupStrains => CandidateSetupStrains();
    case Stiffness => CandidateStiffness();
    case StructureInfo => CandidateStructureInfo();
    case Structure => CandidateStructure();
  }

  // One lemma per entry keeps each proof about a single key literal.
  lemma CandidateInfo() ensures Candidate(Name(Info)) == Some(Info) { }
  lemma CandidateBader() ensures Candidate(Name(Bader)) == Some(Bader) { }
  lemma CandidateBandStructure() ensures Candidate(Name(BandStructure)) == Some(BandStructure) { }
  lemma CandidateBandStructureCalculate() ensures Candidate(Name(BandStructureCalculate)) == Some(BandStructureCalculate) { }
  lemma CandidateConvexHull() ensures Candidate(Name(ConvexHull)) == Some(ConvexHull) { }
  lemma CandidateMaterialFingerprint() ensures Candidate(Name(MaterialFingerprint)) == Some(MaterialFingerprint) { }
  lemma CandidateExchange() ensures Candidate(Name(Exchange)) == Some(Exchange) { }
  lemma CandidateExchangeCalculate() ensures Candidate(Name(ExchangeCalculate)) == Some(ExchangeCalculate) { }
  lemma CandidateGs() ensures Candidate(Name(Gs)) == Some(Gs) { }
  lemma CandidateGsCalculate() ensures Candidate(Name(GsCalculate)) == Some(GsCalculate) { }
  lemma CandidateMagneticAnisotropy() ensures Candidate(Name(MagneticAnisotropy)) == Some(MagneticAnisotropy) { }
  lemma CandidateMagstate() ensures Candidate(Name(Magstate)) == Some(Magstate) { }
  lemma CandidatePdos() ensures Candidate(Name(Pdos)) == Some(Pdos) { }
  lemma CandidatePdosCalculate() ensures Candidate(Name(PdosCalculate)) == Some(PdosCalculate) { }
  lemma CandidatePhonons() ensures Candidate(Name(Phonons)) == Some(Phonons) { }
  lemma CandidatePhononsCalculate() ensures Candidate(Name(PhononsCalculate)) == Some(PhononsCalculate) { }
  lemma CandidatePlasmaFrequency() ensures Candidate(Name(PlasmaFrequency)) == Some(PlasmaFrequency) { }
  lemma CandidatePlasmaFrequencyCalculate() ensures Candidate(Name(PlasmaFrequencyCalculate)) == Some(PlasmaFrequencyCalculate) { }
  lemma CandidatePolarizability() ensures Candidate(Name(Polarizability)) == Some(Polarizability) { }
  lemma CandidateProjectedBandStructure() ensures Candidate(Name(ProjectedBandStructure)) == Some(ProjectedBandStructure) { }
  lemma CandidateRelax() ensures Candidate(Name(Relax)) == Some(Relax) { }
  lemma CandidateSetInfo() ensures Candidate(Name(SetInfo)) == Some(SetInfo) { }
  lemma CandidateSetupReduce() ensures Candidate(Name(SetupReduce)) == Some(SetupReduce) { }
  lemma CandidateSetupStrains() ensures Candidate(Name(SetupStrains)) == Some(SetupStrains) { }
  lemma CandidateStiffness() ensures Candidate(Name(Stiffness)) == Some(Stiffness) { }
  lemma CandidateStructureInfo() ensures Candidate(Name(StructureInfo)) == Some(StructureInfo) { }
  lemma CandidateStructure() ensures Candidate(Name(Structure)) == Some(Structure) { }

  /** Looking a type's own name up finds that type: the table has no two entries under one key. */
  lemma ParseName(t: DocType)
    ensures Parse(Name(t)) == Some(t)
  {
    CandidateName(t);
  }

  /** The lookup finds an entry exactly when `s` is one of the table's keys. */
  lemma ParseComplete(s: string)
    ensures Parse(s).Some? <==> IsKnownName(s)
  {
    if IsKnownName(s) {
      var t :| Name(t) == s;
      ParseName(t);
    }
  }

  /** Distinct types have distinct names. */
  lemma NameInjective(a: DocType, b: DocType)
    ensures Name(a) == Name(b) ==> a == b
  {
    ParseName(a);
    ParseName(b);
  }

  /** The table has 27 entries and no type is missing from it. */
  lemma AllTypesComplete()
    ensures |AllTypes| == 27
    ensures forall t :: t in AllTypes
  {
    forall t: DocType
      ensures t in AllTypes
    {
      match t
      case Info => assert AllTypes[0] == t;
      case Bader => assert AllTypes[1] == t;
      case BandStructure => assert AllTypes[2] == t;
      case BandStructureCalculate => assert AllTypes[3] == t;
      case ConvexHull => assert AllTypes[4] == t;
      case MaterialFingerprint => assert AllTypes[5] == t;
      case Exchange => assert AllTypes[6] == t;
      case ExchangeCalculate => assert AllTypes[7] == t;
      case Gs => assert AllTypes[8] == t;
      case GsCalculate => assert AllTypes[9] == t;
      case MagneticAnisotropy => assert AllTypes[10] == t;
      case Magstate => assert AllTypes[11] == t;
      case Pdos => assert AllTypes[12] == t;
      case PdosCalculate => assert AllTypes[13] == t;
      case Phonons => assert AllTypes[14] == t;
      case PhononsCalculate => assert AllTypes[15] == t;
      case PlasmaFrequency => assert AllTypes[16] == t;
      case PlasmaFrequencyCalculate => assert AllTypes[17] == t;
      case Polarizability => assert AllTypes[18] == t;
      case ProjectedBandStructure => assert AllTypes[19] == t;
      case Relax => assert AllTypes[20] == t;
      case SetInfo => assert AllTypes[21] == t;
      case SetupReduce => assert AllTypes[22] == t;
      case SetupStrains => assert AllTypes[23] == t;
      case Stiffness => assert AllTypes[24] == t;
      case StructureInfo => assert AllTypes[25] == t;
      case Structure => assert AllTypes[26] == t;
    }
  }

  /** No entry is keyed by the empty string. */
  lemma NameNonEmpty(t: DocType)
    ensures Name(t) != ""
  {
    ParseName(t);
  }
}

=== FILE: extractors.dfy ===
/**
 * The per-document extractors of the C2DB client and the dispatch table that
 * maps each document type to one. Every extractor receives the document
 * already fetched and parsed; what it returns is the Python value it builds,
 * or the exception it raises.
 */
module Extractors {
  import opened Wrappers
  import opened Json
  import opened NdArray
  import opened Values
  import opened DocTypes

  /** Field `key` of the `kwargs.data` object every C2DB result document carries its payload in. */
  function DataField(doc: Json, key: string): Outcome<Json>
  {
    GetPath(doc, ["kwargs", "data", key])
  }

  /** `doc[k0][k1]...` followed by decoding the array found there. */
  function DecodeAt(doc: Json, path: seq<string>): (r: Outcome<Tensor>)
    ensures r.Err? ==> !Absorbed(r.error)
    ensures r.Ok? ==> GetPath(doc, path).Ok? && Decode(GetPath(doc, path).value) == r
  {
    var enc :- GetPath(doc, path);
    Decode(enc)
  }

  /** The shape written in an "__ndarray__" triple, as numpy's reshape reads it. */
  function DeclaredShape(enc: Json): Outcome<seq<nat>>
  {
    var e :- Triple(enc);
    ShapeOf(e.shape)
  }

  // ---------------------------------------------------------------------------
  // Band structure

  /** The two calculations a band-structure document may hold: without and with spin-orbit coupling. */
  const NoSoc: string := "bs_nosoc"
  const Soc: string := "bs_soc"

  function EnergiesPath(variant: string): seq<string>
  {
    ["kwargs", "data", variant, "energies", "__ndarray__"]
  }

  function KPathPath(variant: string): seq<string>
  {
    ["kwargs", "data", variant, "path"]
  }

  /** Keys of a present no-SOC entry; the SOC entry has the same keys except the spin flag. */
  const NoSocKeys: set<string> := {"kpath", "is_spinpolarized", "bands", "koints_labels", "special_points"}
  const SocKeys: set<string> := {"kpath", "bands", "koints_labels", "special_points"}

  /**
   * The spin flag of the no-SOC energies: `1 == shape[0]` gives 0, `2 == shape[0]`
   * gives 1, and any other first entry reaches the `raise` of a plain string.
   * Python's `True == 1` holds, so a boolean `true` counts as 1.
   */
  function SpinPolarized(shape: Json): (r: Outcome<int>)
    ensures r.Err? ==> !Absorbed(r.error)
    ensures r == Ok(0) <==> Index(shape, 0) == Ok(Num(1)) || Index(shape, 0) == Ok(Bool(true))
    ensures r == Ok(1) <==> Index(shape, 0) == Ok(Num(2))
    ensures Index(shape, 0).Ok? && !r.Ok? ==> r == Err(RaisedString)
    ensures Index(shape, 0).Err? ==> r == Err(Index(shape, 0).error)
  {
    var first :- Index(shape, 0);
    if first == Num(1) || first == Bool(true) then Ok(0)
    else if first == Num(2) then Ok(1)
    else Err(RaisedString)
  }

  /** A variant's k-point path: the decoded `kpts` array, the label sequence and the special points. */
  datatype KPath = KPath(kpoints: Tensor, labels: Json, special: Json)

  function ReadKPath(doc: Json, variant: string): (r: Outcome<KPath>)
    ensures r.Err? ==> !Absorbed(r.error)
    ensures r.Ok? <==>
      && DecodeAt(doc, KPathPath(variant) + ["kpts", "__ndarray__"]).Ok?
      && GetPath(doc, KPathPath(variant) + ["labelseq"]).Ok?
      && GetPath(doc, KPathPath(variant) + ["special_points"]).Ok?
    ensures r.Ok? ==>
      && DecodeAt(doc, KPathPath(variant) + ["kpts", "__ndarray__"]) == Ok(r.value.kpoints)
      && GetPath(doc, KPathPath(variant) + ["labelseq"]) == Ok(r.value.labels)
      && GetPath(doc, KPathPath(variant) + ["special_points"]) == Ok(r.value.special)
  {
    match GetPath(doc, KPathPath(variant))
    case Err(e) =>
      GetPathPrefixFails(doc, KPathPath(variant), ["kpts", "__ndarray__"]);
      Err(e)
    case Ok(kpath) =>
      GetPathAppend(doc, KPathPath(variant), ["kpts", "__ndarray__"]);
      GetPathAppend(doc, KPathPath(variant), ["labelseq"]);
      GetPathAppend(doc, KPathPath(variant), ["special_points"]);
      var kpts :- GetPath(kpath, ["kpts", "__ndarray__"]);
      var kpoints :- Decode(kpts);
      var labels :- Get(kpath, "labelseq");
      var special :- Get(kpath, "special_points");
      Ok(KPath(kpoints, labels, special))
  }

  /** The dict written for the k-point path of one variant. */
  function KPathFields(kp: KPath): map<string, Value>
  {
    map["kpath" := Dict(map["kpoints" := Array(kp.kpoints)]),
        "koints_labels" := Doc(kp.labels),
        "special_points" := Doc(kp.special)]
  }

  /** The no-SOC entry, built from the energies triple `target` found in `doc`. */
  function NoSocEntry(doc: Json, target: Json): (r: Outcome<Value>)
    ensures r.Err? ==> !Absorbed(r.error)
    ensures r.Ok? <==>
      && Decode(target).Ok?
      && |DeclaredShape(target).value| > 0
      && (DeclaredShape(target).value[0] == 1 || DeclaredShape(target).value[0] == 2)
      && ReadKPath(doc, NoSoc).Ok?
    ensures r.Ok? ==> r.value.Dict? && r.value.fields.Keys == NoSocKeys
    ensures r.Ok? ==>
      && Decode(target).Ok?
      && r.value.fields["bands"] == Array(Decode(target).value)
      && DeclaredShape(target).Ok?
      && var dims := DeclaredShape(target).value;
         && |dims| > 0
         && (dims[0] == 1 <==> r.value.fields["is_spinpolarized"] == Doc(Num(0)))
         && (dims[0] == 2 <==> r.value.fields["is_spinpolarized"] == Doc(Num(1)))
    ensures DeclaredShape(target).Ok? && |DeclaredShape(target).value| > 0 &&
            DeclaredShape(target).value[0] != 1 && DeclaredShape(target).value[0] != 2 ==>
            r == Err(RaisedString)
    ensures r.Ok? ==>
      && ReadKPath(doc, NoSoc).Ok?
      && forall k :: k in KPathFields(ReadKPath(doc, NoSoc).value) ==>
           r.value.fields[k] == KPathFields(ReadKPath(doc, NoSoc).value)[k]
  {
    var e :- Triple(target);
    var spin :- SpinPolarized(e.shape);
    var energies :- ReshapeEncoded(e);
    var kp :- ReadKPath(doc, NoSoc);
    Ok(Dict(KPathFields(kp)["is_spinpolarized" := Doc(Num(spin))]["bands" := Array(energies)]))
  }

  /** The SOC entry: as the no-SOC one, but the first dimension is not inspected and no spin flag is written. */
  function SocEntry(doc: Json, target: Json): (r: Outcome<Value>)
    ensures r.Err? ==> !Absorbed(r.error)
    ensures r.Ok? <==> Decode(target).Ok? && ReadKPath(doc, Soc).Ok?
    ensures r.Ok? ==> r.value.Dict? && r.value.fields.Keys == SocKeys
    ensures r.Ok? ==> Decode(target).Ok? && r.value.fields["bands"] == Array(Decode(target).value)
    ensures r.Ok? ==>
      && ReadKPath(doc, Soc).Ok?
      && forall k :: k in KPathFields(ReadKPath(doc, Soc).value) ==>
           r.value.fields[k] == KPathFields(ReadKPath(doc, Soc).value)[k]
  {
    var e :- Triple(target);
    var energies :- ReshapeEncoded(e);
    var kp :- ReadKPath(doc, Soc);
    Ok(Dict(KPathFields(kp)["bands" := Array(energies)]))
  }

  /**
   * One variant inside `try: ... except KeyError`: a KeyError on the way to the
   * energies leaves the entry `{}`; any other failure there, or any failure
   * after the energies were found, propagates.
   */
  function Variant(doc: Json, variant: string): (r: Outcome<Value>)
    ensures r.Err? ==> !Absorbed(r.error)
    ensures r == Ok(Dict(map[])) <==> KeyMissing(doc, EnergiesPath(variant))
    ensures GetPath(doc, EnergiesPath(variant)).Err? && !KeyMissing(doc, EnergiesPath(variant)) ==>
      r == Err(GetPath(doc, EnergiesPath(variant)).error)
    ensures GetPath(doc, EnergiesPath(variant)).Ok? && variant == NoSoc ==>
      r == NoSocEntry(doc, GetPath(doc, EnergiesPath(variant)).value)
    ensures GetPath(doc, EnergiesPath(variant)).Ok? && variant != NoSoc ==>
      r == SocEntry(doc, GetPath(doc, EnergiesPath(variant)).value)
  {
    match GetPath(doc, EnergiesPath(variant))
    case Ok(target) => if variant == NoSoc then NoSocEntry(doc, target) else SocEntry(doc, target)
    case Err(e) => if e.KeyError? then Ok(Dict(map[])) else Err(e)
  }

  /** `getBandStructureJson`. */
  function ExtractBands(doc: Json): (r: Outcome<Value>)
    ensures !doc.Obj? ==> r == Err(AssertionError)
    ensures doc.Obj? ==> r != Err(AssertionError)
    ensures doc.Obj? ==> (r.Ok? <==> Variant(doc, NoSoc).Ok? && Variant(doc, Soc).Ok?)
    ensures r.Ok? ==> r.value.Dict? && r.value.fields.Keys == {"nonsoc_energies", "soc_energies"}
    ensures r.Ok? ==> (r.value.fields["nonsoc_energies"] == Dict(map[]) <==> KeyMissing(doc, EnergiesPath(NoSoc)))
    ensures r.Ok? ==> (r.value.fields["soc_energies"] == Dict(map[]) <==> KeyMissing(doc, EnergiesPath(Soc)))
    ensures r.Ok? && !KeyMissing(doc, EnergiesPath(NoSoc)) ==>
      && GetPath(doc, EnergiesPath(NoSoc)).Ok?
      && NoSocEntry(doc, GetPath(doc, EnergiesPath(NoSoc)).value) == Ok(r.value.fields["nonsoc_energies"])
    ensures r.Ok? && !KeyMissing(doc, EnergiesPath(Soc)) ==>
      && GetPath(doc, EnergiesPath(Soc)).Ok?
      && SocEntry(doc, GetPath(doc, EnergiesPath(Soc)).value) == Ok(r.value.fields["soc_energies"])
  {
    // written as matches rather than `:-` so that each path is proved on its own
    match CheckTypeDict(doc)
    case Err(e) => Err(e)
    case Ok(_) =>
      match Variant(doc, NoSoc)
      case Err(e) => Err(e)
      case Ok(nosoc) =>
        match Variant(doc, Soc)
        case Err(e) => Err(e)
        case Ok(soc) => Ok(Dict(map["nonsoc_energies" := nosoc, "soc_energies" := soc]))
  }

  /** A dict document with neither variant still yields a record, with both entries `{}`. */
  lemma BandsBothMissing(doc: Json)
    requires doc.Obj?
    requires KeyMissing(doc, EnergiesPath(NoSoc)) && KeyMissing(doc, EnergiesPath(Soc))
    ensures ExtractBands(doc) == Ok(Dict(map["nonsoc_energies" := Dict(map[]), "soc_energies" := Dict(map[])]))
  {
    assert Variant(doc, NoSoc) == Ok(Dict(map[]));
    assert Variant(doc, Soc) == Ok(Dict(map[]));
  }

  /** A dict document with only a well-formed no-SOC variant yields that entry and `{}` for SOC. */
  lemma BandsNoSocOnly(doc: Json)
    requires doc.Obj?
    requires GetPath(doc, EnergiesPath(NoSoc)).Ok?
    requires NoSocEntry(doc, GetPath(doc, EnergiesPath(NoSoc)).value).Ok?
    requires KeyMissing(doc, EnergiesPath(Soc))
    ensures ExtractBands(doc) == Ok(Dict(map[
      "nonsoc_energies" := NoSocEntry(doc, GetPath(doc, EnergiesPath(NoSoc)).value).value,
      "soc_energies" := Dict(map[])]))
  {
    assert Variant(doc, NoSoc) == NoSocEntry(doc, GetPath(doc, EnergiesPath(NoSoc)).value);
    assert Variant(doc, Soc) == Ok(Dict(map[]));
  }

  // ---------------------------------------------------------------------------
  // Relaxed cell

  /** The six lattice constants of a relaxed cell, each kept verbatim. */
  datatype Lattice = Lattice(a: Json, b: Json, c: Json, alpha: Json, beta: Json, gamma: Json)

  /** `data["a"]`, ..., `data["gamma"]` in this order; the first missing key fails. */
  function ReadLattice(data: Json): (r: Outcome<Lattice>)
    ensures r.Err? ==> !Absorbed(r.error)
    ensures r.Ok? <==> data.Obj? && {"a", "b", "c", "alpha", "beta", "gamma"} <= data.fields.Keys
    ensures r.Ok? ==>
      && Get(data, "a") == Ok(r.value.a) && Get(data, "b") == Ok(r.value.b) && Get(data, "c") == Ok(r.value.c)
      && Get(data, "alpha") == Ok(r.value.alpha) && Get(data, "beta") == Ok(r.value.beta)
      && Get(data, "gamma") == Ok(r.value.gamma)
  {
    var a :- Get(data, "a");
    var b :- Get(data, "b");
    var c :- Get(data, "c");
    var alpha :- Get(data, "alpha");
    var beta :- Get(data, "beta");
    var gamma :- Get(data, "gamma");
    Ok(Lattice(a, b, c, alpha, beta, gamma))
  }

  /** The `lattice_info` dict. */
  function LatticeInfo(l: Lattice): Value
  {
    Dict(map["a" := Doc(l.a), "b" := Doc(l.b), "c" := Doc(l.c),
             "alpha" := Doc(l.alpha), "beta" := Doc(l.beta), "gamma" := Doc(l.gamma)])
  }

  /** The relaxed-cell dict for a document whose `kwargs.data` is `data`. */
  function RelaxedCell(data: Json): (r: Outcome<Value>)
    ensures r.Err? ==> !Absorbed(r.error)
    ensures r.Ok? <==> DecodeAt(data, ["spos", "__ndarray__"]).Ok? && ReadLattice(data).Ok? && Get(data, "edft").Ok?
    ensures r.Ok? ==>
      && r.value.Dict?
      && r.value.fields.Keys == {"symbols", "lattice_info", "energy_dft", "supercell_positions"}
      && r.value.fields["symbols"] == Doc(data)
      && Get(data, "edft").Ok?
      && r.value.fields["energy_dft"] == Doc(Get(data, "edft").value)
      && DecodeAt(data, ["spos", "__ndarray__"]).Ok?
      && r.value.fields["supercell_positions"] == Array(DecodeAt(data, ["spos", "__ndarray__"]).value)
    ensures r.Ok? ==>
      && ReadLattice(data).Ok?
      && r.value.fields["lattice_info"] == LatticeInfo(ReadLattice(data).value)
  {
    var positions :- DecodeAt(data, ["spos", "__ndarray__"]);
    var lattice :- ReadLattice(data);
    var edft :- Get(data, "edft");
    Ok(Dict(map[
      "symbols" := Doc(data),
      "lattice_info" := LatticeInfo(lattice),
      "energy_dft" := Doc(edft),
      "supercell_positions" := Array(positions)]))
  }

  /** `getRelaxJson`. */
  function ExtractRelaxedCell(doc: Json): (r: Outcome<Value>)
    ensures doc.Null? ==> r == Ok(PyNone)
    ensures !doc.Null? && !doc.Obj? ==> r == Err(NotSubscriptable)
    ensures r.Err? ==> !Absorbed(r.error)
    ensures !doc.Null? ==>
      && (r.Ok? ==> GetPath(doc, ["kwargs", "data"]).Ok?)
      && (GetPath(doc, ["kwargs", "data"]).Ok? ==> r == RelaxedCell(GetPath(doc, ["kwargs", "data"]).value))
  {
    // checkTypeDict fails on every non-dict; only None is then answered with None
    if CheckTypeDict(doc).Err? && doc.Null? then Ok(PyNone)
    else
      var data :- GetPath(doc, ["kwargs", "data"]);
      RelaxedCell(data)
  }

  lemma DataFieldSplit(doc: Json, data: Json, k: string)
    requires GetPath(doc, ["kwargs", "data"]) == Ok(data)
    ensures DataField(doc, k) == Get(data, k)
  {
    GetPathAppend(doc, ["kwargs", "data"], [k]);
    assert ["kwargs", "data"] + [k] == ["kwargs", "data", k];
  }

  /**
   * The relaxed cell of a present document, stated against the document
   * itself: lattice constants and energy copied from `kwargs.data`, the whole
   * `kwargs.data` object as the symbols, and the decoded `spos` positions.
   */
  lemma RelaxedCellFields(doc: Json)
    requires !doc.Null? && ExtractRelaxedCell(doc).Ok?
    ensures var f := ExtractRelaxedCell(doc).value.fields;
      && GetPath(doc, ["kwargs", "data"]).Ok?
      && f["symbols"] == Doc(GetPath(doc, ["kwargs", "data"]).value)
      && DataField(doc, "edft").Ok?
      && f["energy_dft"] == Doc(DataField(doc, "edft").value)
      && DecodeAt(doc, ["kwargs", "data", "spos", "__ndarray__"]).Ok?
      && f["supercell_positions"] == Array(DecodeAt(doc, ["kwargs", "data", "spos", "__ndarray__"]).value)
      && f["lattice_info"].Dict?
      && f["lattice_info"].fields.Keys == {"a", "b", "c", "alpha", "beta", "gamma"}
      && forall k :: k in f["lattice_info"].fields ==>
           DataField(doc, k).Ok? && f["lattice_info"].fields[k] == Doc(DataField(doc, k).value)
  {
    var data := GetPath(doc, ["kwargs", "data"]).value;
    assert ExtractRelaxedCell(doc) == RelaxedCell(data);
    LatticeFields(doc, data);
    DataFieldSplit(doc, data, "edft");
    GetPathAppend(doc, ["kwargs", "data"], ["spos", "__ndarray__"]);
    assert ["kwargs", "data"] + ["spos", "__ndarray__"] == ["kwargs", "data", "spos", "__ndarray__"];
  }

  /** The `lattice_info` dict holds each constant of the document's `kwargs.data` under its own key. */
  lemma LatticeFields(doc: Json, data: Json)
    requires GetPath(doc, ["kwargs", "data"]) == Ok(data) && ReadLattice(data).Ok?
    ensures var info := LatticeInfo(ReadLattice(data).value);
      && info.Dict?
      && info.fields.Keys == {"a", "b", "c", "alpha", "beta", "gamma"}
      && forall k :: k in info.fields ==> DataField(doc, k).Ok? && info.fields[k] == Doc(DataField(doc, k).value)
  {
    DataFieldSplit(doc, data, "a");
    DataFieldSplit(doc, data, "b");
    DataFieldSplit(doc, data, "c");
    DataFieldSplit(doc, data, "alpha");
    DataFieldSplit(doc, data, "beta");
    DataFieldSplit(doc, data, "gamma");
  }

  // ---------------------------------------------------------------------------
  // Material fingerprint

  /**
   * `getDatabaseMaterial_fringerprintJson` of the client created for `requested`:
   * `str()` of the document's own uid. A uid other than the requested one is
   * only reported, never refused.
   */
  function ExtractFingerprint(requested: string, doc: Json): (r: Outcome<string>)
    ensures !doc.Obj? ==> r == Err(AssertionError)
    ensures r.Err? && doc.Obj? ==> !Absorbed(r.error)
    ensures r.Ok? <==> doc.Obj? && DataField(doc, "uid").Ok?
    ensures r.Ok? ==> r.value == PyStr(DataField(doc, "uid").value)
  {
    var _ :- CheckTypeDict(doc);
    var got :- DataField(doc, "uid");
    Ok(PyStr(got))
  }

  /** The uid mismatch the client reports (and otherwise ignores). */
  predicate IdMismatch(requested: string, doc: Json)
  {
    ExtractFingerprint(requested, doc).Ok? && ExtractFingerprint(requested, doc).value != requested
  }

  /**
   * The requested uid changes nothing but the report: the returned uid is the
   * document's, and a document carrying another uid is reported as a mismatch.
   */
  lemma FingerprintIgnoresRequest(requested: string, other: string, doc: Json)
    ensures ExtractFingerprint(requested, doc) == ExtractFingerprint(other, doc)
    ensures DataField(doc, "uid") == Ok(Str(other)) && doc.Obj? ==> ExtractFingerprint(requested, doc) == Ok(other)
    ensures DataField(doc, "uid") == Ok(Str(other)) && doc.Obj? && other != requested ==> IdMismatch(requested, doc)
  {
  }

  // ---------------------------------------------------------------------------
  // Structure info

  const StructureKeys: set<string> :=
    {"formula", "point_group", "spacegroup", "spacegroup_number", "lattice", "position", "atom_types"}

  function SpglibPath(key: string): seq<string>
  {
    ["kwargs", "data", "spglib_dataset", key]
  }

  /** What is taken from the `spglib_dataset` object: the space-group number, the two reshaped arrays and the unreshaped atom types. */
  datatype Spglib = Spglib(number: Json, lattice: Tensor, positions: Tensor, atomTypes: Json)

  function ReadSpglib(dataset: Json): (r: Outcome<Spglib>)
    ensures r.Err? ==> !Absorbed(r.error)
    ensures r.Ok? <==>
      && Get(dataset, "number").Ok?
      && DecodeAt(dataset, ["std_lattice", "__ndarray__"]).Ok?
      && DecodeAt(dataset, ["std_positions", "__ndarray__"]).Ok?
      && GetPath(dataset, ["std_types", "__ndarray__"]).Ok?
      && Index(GetPath(dataset, ["std_types", "__ndarray__"]).value, 2).Ok?
    ensures r.Ok? ==>
      && Get(dataset, "number") == Ok(r.value.number)
      && DecodeAt(dataset, ["std_lattice", "__ndarray__"]) == Ok(r.value.lattice)
      && DecodeAt(dataset, ["std_positions", "__ndarray__"]) == Ok(r.value.positions)
      && GetPath(dataset, ["std_types", "__ndarray__"]).Ok?
      && Index(GetPath(dataset, ["std_types", "__ndarray__"]).value, 2) == Ok(r.value.atomTypes)
  {
    var number :- Get(dataset, "number");
    var lattice :- DecodeAt(dataset, ["std_lattice", "__ndarray__"]);
    var positions :- DecodeAt(dataset, ["std_positions", "__ndarray__"]);
    var typesEnc :- GetPath(dataset, ["std_types", "__ndarray__"]);
    var atomTypes :- Index(typesEnc, 2);
    Ok(Spglib(number, lattice, positions, atomTypes))
  }

  /** `getStructureinfoJson`. */
  function ExtractStructureInfo(doc: Json): (r: Outcome<Value>)
    ensures !doc.Obj? ==> r == Err(AssertionError)
    ensures r.Err? && doc.Obj? ==> !Absorbed(r.error)
    ensures doc.Obj? ==> (r.Ok? <==>
      && DataField(doc, "formula").Ok?
      && DataField(doc, "pointgroup").Ok?
      && DataField(doc, "spacegroup").Ok?
      && DataField(doc, "spglib_dataset").Ok?
      && ReadSpglib(DataField(doc, "spglib_dataset").value).Ok?)
    ensures r.Ok? ==> r.value.Dict? && r.value.fields.Keys == StructureKeys
    ensures r.Ok? ==>
      && DataField(doc, "formula").Ok? && r.value.fields["formula"] == Doc(DataField(doc, "formula").value)
      && DataField(doc, "pointgroup").Ok? && r.value.fields["point_group"] == Doc(DataField(doc, "pointgroup").value)
      && DataField(doc, "spacegroup").Ok? && r.value.fields["spacegroup"] == Doc(DataField(doc, "spacegroup").value)
    ensures r.Ok? ==>
      && DataField(doc, "spglib_dataset").Ok?
      && var ds := ReadSpglib(DataField(doc, "spglib_dataset").value);
         && ds.Ok?
         && r.value.fields["spacegroup_number"] == Doc(ds.value.number)
         && r.value.fields["lattice"] == Array(ds.value.lattice)
         && r.value.fields["position"] == Array(ds.value.positions)
         && r.value.fields["atom_types"] == Array(FromFlat(ds.value.atomTypes))
  {
    var _ :- CheckTypeDict(doc);
    var formula :- DataField(doc, "formula");
    var pointGroup :- DataField(doc, "pointgroup");
    var spaceGroup :- DataField(doc, "spacegroup");
    var dataset :- DataField(doc, "spglib_dataset");
    var ds :- ReadSpglib(dataset);
    Ok(Dict(map[
      "formula" := Doc(formula),
      "point_group" := Doc(pointGroup),
      "spacegroup" := Doc(spaceGroup),
      "spacegroup_number" := Doc(ds.number),
      "lattice" := Array(ds.lattice),
      "position" := Array(ds.positions),
      "atom_types" := Array(FromFlat(ds.atomTypes))]))
  }

  /**
   * The structure-info arrays, stated against the document itself: the space
   * group number is copied and the lattice and positions are the decoded
   * `std_lattice` and `std_positions` triples.
   */
  lemma StructureInfoArrays(doc: Json)
    requires ExtractStructureInfo(doc).Ok?
    ensures var f := ExtractStructureInfo(doc).value.fields;
      && GetPath(doc, SpglibPath("number")).Ok?
      && f["spacegroup_number"] == Doc(GetPath(doc, SpglibPath("number")).value)
      && DecodeAt(doc, SpglibPath("std_lattice") + ["__ndarray__"]).Ok?
      && f["lattice"] == Array(DecodeAt(doc, SpglibPath("std_lattice") + ["__ndarray__"]).value)
      && DecodeAt(doc, SpglibPath("std_positions") + ["__ndarray__"]).Ok?
      && f["position"] == Array(DecodeAt(doc, SpglibPath("std_positions") + ["__ndarray__"]).value)
  {
    var dataset := DataField(doc, "spglib_dataset").value;
    var ds := ReadSpglib(dataset).value;
    var f := ExtractStructureInfo(doc).value.fields;
    assert f["spacegroup_number"] == Doc(ds.number);
    assert f["lattice"] == Array(ds.lattice);
    assert f["position"] == Array(ds.positions);
    SpglibPathSplit(doc, dataset, "number");
    SpglibPathSplit(doc, dataset, "std_lattice");
    SpglibPathSplit(doc, dataset, "std_positions");
  }

  /** The atom types are not reshaped: they are written out exactly as the flat data of `std_types`. */
  lemma StructureInfoAtomTypes(doc: Json)
    requires ExtractStructureInfo(doc).Ok?
    ensures var f := ExtractStructureInfo(doc).value.fields;
      && GetPath(doc, SpglibPath("std_types") + ["__ndarray__"]).Ok?
      && Index(GetPath(doc, SpglibPath("std_types") + ["__ndarray__"]).value, 2).Ok?
      && Serialize(f["atom_types"]) == Index(GetPath(doc, SpglibPath("std_types") + ["__ndarray__"]).value, 2).value
  {
    var dataset := DataField(doc, "spglib_dataset").value;
    var ds := ReadSpglib(dataset).value;
    assert ExtractStructureInfo(doc).value.fields["atom_types"] == Array(FromFlat(ds.atomTypes));
    SpglibPathSplit(doc, dataset, "std_types");
    FromFlatToList(ds.atomTypes);
  }

  lemma SpglibPathSplit(doc: Json, dataset: Json, k: string)
    requires DataField(doc, "spglib_dataset") == Ok(dataset)
    ensures GetPath(doc, SpglibPath(k)) == Get(dataset, k)
    ensures GetPath(doc, SpglibPath(k) + ["__ndarray__"]) == GetPath(dataset, [k, "__ndarray__"])
  {
    var base := ["kwargs", "data", "spglib_dataset"];
    GetPathAppend(doc, base, [k]);
    assert base + [k] == SpglibPath(k);
    GetPathAppend(doc, base, [k, "__ndarray__"]);
    assert base + [k, "__ndarray__"] == SpglibPath(k) + ["__ndarray__"];
  }

  // ---------------------------------------------------------------------------
  // Dispatch

  /** Types with a real extractor; every other entry of the table is a stub. */
  predicate Implemented(t: DocType)
  {
    t.Info? || t.BandStructure? || t.MaterialFingerprint? || t.Relax? || t.StructureInfo?
  }

  /** Types whose extractor starts with `checkTypeDict` and lets its AssertionError escape. */
  predicate AssertsDict(t: DocType)
  {
    t.Info? || t.BandStructure? || t.MaterialFingerprint? || t.StructureInfo?
  }

  /**
   * The handler the table stores for `t`, applied to the document fetched for
   * it; `uid` is the client's material, which only the fingerprint extractor
   * reads. `getInfoJson` checks the document and returns None; the remaining
   * 22 entries return None without looking at it.
   */
  function Handler(t: DocType, uid: string, doc: Json): (r: Outcome<Value>)
    ensures !Implemented(t) ==> r == Ok(PyNone)
    ensures t.Info? ==> r == (if doc.Obj? then Ok(PyNone) else Err(AssertionError))
    ensures t.MaterialFingerprint? ==> (r.Ok? <==> ExtractFingerprint(uid, doc).Ok?)
    ensures t.MaterialFingerprint? && r.Ok? ==> r.value == Doc(Str(ExtractFingerprint(uid, doc).value))
    ensures t.MaterialFingerprint? && r.Err? ==> r.error == ExtractFingerprint(uid, doc).error
  {
    match t
    case Info =>
      var _ :- CheckTypeDict(doc);
      Ok(PyNone)
    case BandStructure => ExtractBands(doc)
    case MaterialFingerprint =>
      var id :- ExtractFingerprint(uid, doc);
      Ok(Doc(Str(id)))
    case Relax => ExtractRelaxedCell(doc)
    case StructureInfo => ExtractStructureInfo(doc)
    case _ => Ok(PyNone)
  }

  /**
   * The one failure the crawl forgives comes only from `checkTypeDict`: a
   * handler fails with AssertionError exactly when its type checks the
   * document and the document is not a dict.
   */
  lemma AssertionOnlyFromTypeCheck(t: DocType, uid: string, doc: Json)
    ensures Handler(t, uid, doc) == Err(AssertionError) <==> AssertsDict(t) && !doc.Obj?
  {
  }

  /** Which extractor the handler of each real entry runs. */
  lemma HandlerDispatch(t: DocType, uid: string, doc: Json)
    ensures t.BandStructure? ==> Handler(t, uid, doc) == ExtractBands(doc)
    ensures t.StructureInfo? ==> Handler(t, uid, doc) == ExtractStructureInfo(doc)
    ensures t.Relax? ==> Handler(t, uid, doc) == ExtractRelaxedCell(doc)
  {
  }
}

=== FILE: json.dfy ===
/**
 * Parsed JSON documents as `json.loads` hands them to the extractors, the
 * Python exceptions that navigating them can raise, and the two primitive
 * accesses every extractor is built from: `doc[key]` and `doc[i]`.
 */
module Json {
  import opened Wrappers

  /** A JSON value. Numbers are integers: no extractor computes with them. */
  datatype Json =
    | Null
    | Bool(b: bool)
    | Num(n: int)
    | Str(s: string)
    | Arr(items: seq<Json>)
    | Obj(fields: map<string, Json>)

  /** The exceptions the extraction code can raise, by the Python class that reaches the crawl loop. */
  datatype Failure =
    | AssertionError          // checkTypeDict on a document that is not a dict
    | RaisedString            // `raise ("...")`: a str is not an exception, so Python raises TypeError
    | KeyError(key: Json)     // a dict lacks the key (a string key, or an integer one)
    | NotSubscriptable        // TypeError: the value does not take that kind of index
    | IndexError              // a list or string index past its end
    | ShapeError              // numpy cannot read the shape or reshape the data to it

  type Outcome<T> = Result<T, Failure>

  /** The crawl loop absorbs exactly these failures and carries on with the next uid. */
  predicate Absorbed(e: Failure) {
    e == AssertionError
  }

  /** `checkTypeDict`: the only place the extraction code asserts anything. */
  function CheckTypeDict(j: Json): (r: Outcome<()>)
    ensures r.Ok? <==> j.Obj?
    ensures r.Err? ==> Absorbed(r.error)
  {
    if j.Obj? then Ok(()) else Err(AssertionError)
  }

  /**
   * `j[key]` with a string key: a dict holding the key gives its value, a dict
   * without it raises KeyError with the key, and any other value does not
   * take a string index (TypeError).
   */
  function Get(j: Json, key: string): (r: Outcome<Json>)
    ensures r.Err? ==> !Absorbed(r.error)
    ensures r.Ok? <==> j.Obj? && key in j.fields
    ensures r.Ok? ==> r.value == j.fields[key]
    ensures j.Obj? && key !in j.fields ==> r == Err(KeyError(Str(key)))
    ensures !j.Obj? ==> r == Err(NotSubscriptable)
  {
    match j
    case Obj(m) => if key in m then Ok(m[key]) else Err(KeyError(Str(key)))
    case _ => Err(NotSubscriptable)
  }

  /** `j[k0][k1]...`, failing at the first step that fails. */
  function GetPath(j: Json, path: seq<string>): (r: Outcome<Json>)
    ensures r.Err? ==> !Absorbed(r.error)
    decreases |path|
  {
    if |path| == 0 then Ok(j)
    else
      var child :- Get(j, path[0]);
      GetPath(child, path[1..])
  }

  /** Following a path in two legs is following it in one. */
  lemma {:induction false} GetPathAppend(j: Json, p: seq<string>, q: seq<string>)
    requires GetPath(j, p).Ok?
    ensures GetPath(j, p + q) == GetPath(GetPath(j, p).value, q)
    decreases |p|
  {
    if |p| > 0 {
      assert (p + q)[0] == p[0];
      assert (p + q)[1..] == p[1..] + q;
      GetPathAppend(Get(j, p[0]).value, p[1..], q);
    } else {
      assert p + q == q;
    }
  }

  /** A path whose first leg fails fails with the same error, however it goes on. */
  lemma {:induction false} GetPathPrefixFails(j: Json, p: seq<string>, q: seq<string>)
    requires GetPath(j, p).Err?
    ensures GetPath(j, p + q) == GetPath(j, p)
    decreases |p|
  {
    assert |p| > 0;
    assert (p + q)[0] == p[0];
    assert (p + q)[1..] == p[1..] + q;
    if Get(j, p[0]).Ok? {
      GetPathPrefixFails(Get(j, p[0]).value, p[1..], q);
    }
  }

  /** True when `j[k0][k1]...` raises KeyError, the one failure a `try ... except KeyError` swallows. */
  predicate KeyMissing(j: Json, path: seq<string>) {
    var r := GetPath(j, path);
    r.Err? && r.error.KeyError?
  }

  /**
   * `j[i]` with a non-negative integer index: a list gives its item, a string
   * its one-character substring; a dict decoded from JSON has only string keys,
   * so an integer key is never found.
   */
  function Index(j: Json, i: nat): (r: Outcome<Json>)
    ensures r.Err? ==> !Absorbed(r.error)
    ensures j.Arr? ==> (if i < |j.items| then r == Ok(j.items[i]) else r == Err(IndexError))
    ensures j.Str? ==> (if i < |j.s| then r == Ok(Str([j.s[i]])) else r == Err(IndexError))
    ensures j.Obj? ==> r == Err(KeyError(Num(i)))
    ensures !j.Arr? && !j.Str? && !j.Obj? ==> r == Err(NotSubscriptable)
  {
    match j
    case Arr(items) => if i < |items| then Ok(items[i]) else Err(IndexError)
    case Str(s) => if i < |s| then Ok(Str([s[i]])) else Err(IndexError)
    case Obj(_) => Err(KeyError(Num(i)))
    case _ => Err(NotSubscriptable)
  }

  /** The value of one decimal digit character; anything else reads as 0. */
  function DigitValue(c: char): nat
  {
    if '0' <= c <= '9' then (c as int - '0' as int) as nat else 0
  }

  /** Reads a string of decimal digits, most significant first. */
  function DecimalValue(s: string): nat
    decreases |s|
  {
    if |s| == 0 then 0 else 10 * DecimalValue(s[..|s| - 1]) + DigitValue(s[|s| - 1])
  }

  /**
   * Decimal digits of a natural number, without leading zeros: read back
   * they give the number, and only 0 itself starts with the digit 0.
   */
  function NatToDecimal(n: nat): (s: string)
    ensures |s| > 0
    ensures forall i :: 0 <= i < |s| ==> '0' <= s[i] <= '9'
    ensures s[0] == '0' ==> n == 0 && |s| == 1
    ensures DecimalValue(s) == n
    decreases n
  {
    var d := ['0' + (n % 10) as char];
    if n < 10 then d
    else
      var p := NatToDecimal(n / 10);
      assert (p + d)[..|p|] == p;
      p + d
  }

  /**
   * Python's `str()` of a JSON value: a string is itself, an integer its
   * decimal form, null and booleans their Python names. Lists and dicts are
   * rendered as a fixed marker (see README, "Left out").
   */
  function PyStr(j: Json): (s: string)
    ensures j.Str? ==> s == j.s
    ensures j.Num? && j.n >= 0 ==>
      && (forall i :: 0 <= i < |s| ==> '0' <= s[i] <= '9')
      && |s| > 0 && (s[0] == '0' ==> |s| == 1)
      && DecimalValue(s) == j.n
    ensures j.Num? && j.n < 0 ==>
      && |s| > 1 && s[0] == '-' && s[1] != '0'
      && (forall i :: 1 <= i < |s| ==> '0' <= s[i] <= '9')
      && DecimalValue(s[1..]) == -j.n
  {
    match j
    case Str(s) => s
    case Num(n) => if n < 0 then "-" + NatToDecimal(-n) else NatToDecimal(n)
    case Null => "None"
    case Bool(b) => if b then "True" else "False"
    case Arr(_) => "[...]"
    case Obj(_) => "{...}"
  }
}

=== FILE: ndarray.dfy ===
/**
 * The `__ndarray__` convention: an array travels as a `[shape, dtype, flat]`
 * triple, `np.array(flat).reshape(tuple(shape))` rebuilds it row-major, and
 * `ndarray.tolist()` (what the output encoder writes) turns it back into
 * nested JSON lists.
 */
module NdArray {
  import opened Wrappers
  import opened Json

  /** A numpy array: a 0-d array holds one value, every other level a row of sub-arrays. */
  datatype Tensor = Scalar(v: Json) | Dim(items: seq<Tensor>)

  /** Number of elements of an array of the given shape (1 for the empty shape). */
  function Product(shape: seq<nat>): nat
    decreases |shape|
  {
    if |shape| == 0 then 1 else shape[0] * Product(shape[1..])
  }

  /** `t` has exactly the dimensions listed in `shape`, outermost first. */
  predicate HasShape(t: Tensor, shape: seq<nat>)
    decreases |shape|
  {
    if |shape| == 0 then t.Scalar?
    else
      && t.Dim?
      && |t.items| == shape[0]
      && forall i :: 0 <= i < |t.items| ==> HasShape(t.items[i], shape[1..])
  }

  /** The elements of `t` in row-major order. */
  function Flatten(t: Tensor): seq<Json>
  {
    match t
    case Scalar(v) => [v]
    case Dim(items) => FlattenRows(items)
  }

  function FlattenRows(rows: seq<Tensor>): seq<Json>
    decreases rows
  {
    if |rows| == 0 then [] else Flatten(rows[0]) + FlattenRows(rows[1..])
  }

  /** `np.array(flat).reshape(shape)`, defined when the element count matches. */
  function Reshape(shape: seq<nat>, flat: seq<Json>): (t: Tensor)
    requires |flat| == Product(shape)
    ensures HasShape(t, shape)
    ensures Flatten(t) == flat
    decreases 2 * |shape|, 0
  {
    if |shape| == 0 then Scalar(flat[0])
    else Dim(Rows(shape[0], shape[1..], flat))
  }

  /** Cuts `flat` into `n` consecutive blocks, each reshaped to `inner`. */
  function Rows(n: nat, inner: seq<nat>, flat: seq<Json>): (rows: seq<Tensor>)
    requires |flat| == n * Product(inner)
    ensures |rows| == n
    ensures forall i :: 0 <= i < n ==> HasShape(rows[i], inner)
    ensures FlattenRows(rows) == flat
    decreases 2 * |inner| + 1, n
  {
    if n == 0 then []
    else
      var k := Product(inner);
      MulSplit(n, k);
      var head := Reshape(inner, flat[..k]);
      var tail := Rows(n - 1, inner, flat[k..]);
      FlattenRowsAppend(head, tail);
      assert flat[..k] + flat[k..] == flat;
      [head] + tail
  }

  lemma MulSplit(n: nat, k: nat)
    requires n > 0
    ensures n * k == k + (n - 1) * k
  {
  }

  lemma {:induction false} FlattenRowsAppend(a: Tensor, rows: seq<Tensor>)
    ensures FlattenRows([a] + rows) == Flatten(a) + FlattenRows(rows)
  {
    assert ([a] + rows)[1..] == rows;
  }

  /**
   * Reshaping the row-major elements of an array to its own shape gives the
   * array back: decoding what the encoder wrote loses nothing.
   */
  lemma {:induction false} ReshapeFlatten(t: Tensor, shape: seq<nat>)
    requires HasShape(t, shape)
    ensures |Flatten(t)| == Product(shape)
    ensures Reshape(shape, Flatten(t)) == t
    decreases 2 * |shape|, 0
  {
    if |shape| > 0 {
      RowsFlattenRows(t.items, shape[0], shape[1..]);
    }
  }

  lemma {:induction false} RowsFlattenRows(rows: seq<Tensor>, n: nat, inner: seq<nat>)
    requires |rows| == n
    requires forall i :: 0 <= i < n ==> HasShape(rows[i], inner)
    ensures |FlattenRows(rows)| == n * Product(inner)
    ensures Rows(n, inner, FlattenRows(rows)) == rows
    decreases 2 * |inner| + 1, n
  {
    if n > 0 {
      var k := Product(inner);
      ReshapeFlatten(rows[0], inner);
      RowsFlattenRows(rows[1..], n - 1, inner);
      var flat := FlattenRows(rows);
      assert flat == Flatten(rows[0]) + FlattenRows(rows[1..]);
      MulSplit(n, k);
      assert flat[..k] == Flatten(rows[0]);
      assert flat[k..] == FlattenRows(rows[1..]);
      assert rows == [rows[0]] + rows[1..];
    }
  }

  /** `ndarray.tolist()`, which the output encoder writes for every array: nested lists, a bare value at depth 0. */
  function ToList(t: Tensor): Json
  {
    match t
    case Scalar(v) => v
    case Dim(items) => Arr(seq(|items|, i requires 0 <= i < |items| => ToList(items[i])))
  }

  /** Reads `depth` levels of nested lists in row-major order, the inverse view of `ToList`. */
  function Leaves(j: Json, depth: nat): seq<Json>
    decreases depth, 0
  {
    if depth == 0 then [j]
    else if j.Arr? then LeavesAll(j.items, depth - 1)
    else []
  }

  function LeavesAll(js: seq<Json>, depth: nat): seq<Json>
    decreases depth, |js| + 1
  {
    if |js| == 0 then [] else Leaves(js[0], depth) + LeavesAll(js[1..], depth)
  }

  /** What `tolist` writes, read back row-major to the depth of the shape, is the array's flat data. */
  lemma {:induction false} ToListLeaves(t: Tensor, shape: seq<nat>)
    requires HasShape(t, shape)
    ensures Leaves(ToList(t), |shape|) == Flatten(t)
    decreases |shape|, 0
  {
    if |shape| > 0 {
      var rows := t.items;
      var lists := seq(|rows|, i requires 0 <= i < |rows| => ToList(rows[i]));
      assert ToList(t) == Arr(lists);
      ToListLeavesRows(rows, lists, shape[1..]);
    }
  }

  lemma {:induction false} ToListLeavesRows(rows: seq<Tensor>, lists: seq<Json>, inner: seq<nat>)
    requires |lists| == |rows|
    requires forall i :: 0 <= i < |rows| ==> lists[i] == ToList(rows[i]) && HasShape(rows[i], inner)
    ensures LeavesAll(lists, |inner|) == FlattenRows(rows)
    decreases |inner|, 1, |rows|
  {
    if |rows| > 0 {
      ToListLeaves(rows[0], inner);
      ToListLeavesRows(rows[1..], lists[1..], inner);
    }
  }

  /** `j` is nested lists with exactly the dimensions in `shape`, outermost first; below them anything. */
  predicate ListShape(j: Json, shape: seq<nat>)
    decreases |shape|
  {
    if |shape| == 0 then true
    else
      && j.Arr?
      && |j.items| == shape[0]
      && forall i :: 0 <= i < |j.items| ==> ListShape(j.items[i], shape[1..])
  }

  /** `tolist` nests its lists exactly as the array's shape says. */
  lemma {:induction false} ToListShape(t: Tensor, shape: seq<nat>)
    requires HasShape(t, shape)
    ensures ListShape(ToList(t), shape)
    decreases |shape|
  {
    if |shape| > 0 {
      forall i | 0 <= i < |t.items|
        ensures ListShape(ToList(t).items[i], shape[1..])
      {
        ToListShape(t.items[i], shape[1..]);
      }
    }
  }

  /** The `[shape, dtype, flat]` triple found under an "__ndarray__" key; dtype is carried but never used. */
  datatype Encoded = Encoded(shape: Json, dtype: Json, flat: Json)

  /** `x[0], x[1], x[2]` on the value under "__ndarray__". */
  function Triple(j: Json): (r: Outcome<Encoded>)
    ensures r.Err? ==> !Absorbed(r.error)
    ensures r.Ok? <==> Index(j, 0).Ok? && Index(j, 1).Ok? && Index(j, 2).Ok?
    ensures r.Ok? ==> r.value == Encoded(Index(j, 0).value, Index(j, 1).value, Index(j, 2).value)
    ensures j.Arr? && |j.items| >= 3 ==> r == Ok(Encoded(j.items[0], j.items[1], j.items[2]))
    ensures j.Arr? && |j.items| < 3 ==> r == Err(IndexError)
    ensures Index(j, 0).Err? ==> r == Err(Index(j, 0).error)
    ensures Index(j, 0).Ok? && Index(j, 1).Err? ==> r == Err(Index(j, 1).error)
    ensures Index(j, 0).Ok? && Index(j, 1).Ok? && Index(j, 2).Err? ==> r == Err(Index(j, 2).error)
  {
    var shape :- Index(j, 0);
    var dtype :- Index(j, 1);
    var flat :- Index(j, 2);
    Ok(Encoded(shape, dtype, flat))
  }

  /** Every item is a non-negative integer. */
  predicate AllDims(items: seq<Json>) {
    forall i :: 0 <= i < |items| ==> items[i].Num? && items[i].n >= 0
  }

  function Dims(items: seq<Json>): (dims: seq<nat>)
    requires AllDims(items)
    ensures |dims| == |items|
    ensures forall i :: 0 <= i < |items| ==> dims[i] == items[i].n
  {
    seq(|items|, i requires 0 <= i < |items| => items[i].n as nat)
  }

  /**
   * `tuple(shape)` as numpy's reshape reads it: a list of non-negative
   * integers; an empty string or empty dict is the empty tuple; anything else
   * numpy rejects.
   */
  function ShapeOf(j: Json): (r: Outcome<seq<nat>>)
    ensures r.Err? ==> r.error == ShapeError
    ensures j.Arr? ==> (r.Ok? <==> AllDims(j.items))
    ensures j.Arr? && r.Ok? ==> |r.value| == |j.items| && forall i :: 0 <= i < |j.items| ==> r.value[i] == j.items[i].n
    ensures j == Str("") || j == Obj(map[]) ==> r == Ok([])
    ensures !j.Arr? && j != Str("") && j != Obj(map[]) ==> r.Err?
  {
    match j
    case Arr(items) => if AllDims(items) then Ok(Dims(items)) else Err(ShapeError)
    case Str(s) => if s == "" then Ok([]) else Err(ShapeError)
    case Obj(m) => if m == map[] then Ok([]) else Err(ShapeError)
    case _ => Err(ShapeError)
  }

  /** The elements of `np.array(flat)`: a list gives its items, any other value a 0-d array of itself. */
  function Elements(flat: Json): seq<Json>
  {
    if flat.Arr? then flat.items else [flat]
  }

  /** `np.array(flat)` without a reshape, as done for the atom types. */
  function FromFlat(flat: Json): (t: Tensor)
    ensures Flatten(t) == Elements(flat)
  {
    if flat.Arr? then Reshape([|flat.items|], flat.items) else Scalar(flat)
  }

  /** An array built from flat data and never reshaped is written back exactly as it came. */
  lemma FromFlatToList(flat: Json)
    ensures ToList(FromFlat(flat)) == flat
  {
    if flat.Arr? {
      var t := FromFlat(flat);
      var items := flat.items;
      assert HasShape(t, [|items|]);
      assert forall i :: 0 <= i < |items| ==> t.items[i].Scalar?;
      assert forall i :: 0 <= i < |items| ==> [t.items[i].v] == Flatten(t.items[i]);
      FlattenRowsScalars(t.items);
      assert Arr(items).items == items;
    }
  }

  lemma {:induction false} FlattenRowsScalars(rows: seq<Tensor>)
    requires forall i :: 0 <= i < |rows| ==> rows[i].Scalar?
    ensures |FlattenRows(rows)| == |rows|
    ensures forall i :: 0 <= i < |rows| ==> FlattenRows(rows)[i] == rows[i].v
  {
    if |rows| > 0 {
      FlattenRowsScalars(rows[1..]);
    }
  }

  /** `np.array(flat).reshape(tuple(shape))` on an already split triple. */
  function ReshapeEncoded(e: Encoded): (r: Outcome<Tensor>)
    ensures r.Err? ==> !Absorbed(r.error)
    ensures r.Ok? <==> ShapeOf(e.shape).Ok? && |Elements(e.flat)| == Product(ShapeOf(e.shape).value)
    ensures r.Ok? ==> HasShape(r.value, ShapeOf(e.shape).value) && Flatten(r.value) == Elements(e.flat)
  {
    var shape :- ShapeOf(e.shape);
    var flat := Elements(e.flat);
    if |flat| == Product(shape) then Ok(Reshape(shape, flat)) else Err(ShapeError)
  }

  /** Decodes the value found under an "__ndarray__" key. */
  function Decode(j: Json): (r: Outcome<Tensor>)
    ensures r.Err? ==> !Absorbed(r.error)
    ensures r.Ok? <==>
      && Triple(j).Ok?
      && ShapeOf(Triple(j).value.shape).Ok?
      && |Elements(Triple(j).value.flat)| == Product(ShapeOf(Triple(j).value.shape).value)
    ensures r.Ok? ==>
      && HasShape(r.value, ShapeOf(Triple(j).value.shape).value)
      && Flatten(r.value) == Elements(Triple(j).value.flat)
  {
    var e :- Triple(j);
    ReshapeEncoded(e)
  }

  /** The triple the database side stores for an array of the given shape. */
  function Encode(t: Tensor, shape: seq<nat>, dtype: Json): Json
  {
    Arr([Arr(seq(|shape|, i requires 0 <= i < |shape| => Num(shape[i]))), dtype, Arr(Flatten(t))])
  }

  /** Decoding an encoded array gives the array back, whatever the dtype tag. */
  lemma DecodeEncode(t: Tensor, shape: seq<nat>, dtype: Json)
    requires HasShape(t, shape)
    ensures Decode(Encode(t, shape, dtype)) == Ok(t)
  {
    var dims := seq(|shape|, i requires 0 <= i < |shape| => Num(shape[i]));
    var flat := Flatten(t);
    var e := Encode(t, shape, dtype);
    assert e == Arr([Arr(dims), dtype, Arr(flat)]);
    assert Triple(e) == Ok(Encoded(Arr(dims), dtype, Arr(flat)));
    assert AllDims(dims);
    assert Dims(dims) == shape;
    assert ShapeOf(Arr(dims)) == Ok(shape);
    assert Elements(Arr(flat)) == flat;
    ReshapeFlatten(t, shape);
    assert ReshapeEncoded(Encoded(Arr(dims), dtype, Arr(flat))) == Ok(Reshape(shape, flat));
  }

  /** Decoding then serialising with `tolist` writes the flat data back in row-major order. */
  lemma DecodeToList(j: Json)
    requires Decode(j).Ok?
    ensures Leaves(ToList(Decode(j).value), |ShapeOf(Triple(j).value.shape).value|) == Elements(Triple(j).value.flat)
  {
    ToListLeaves(Decode(j).value, ShapeOf(Triple(j).value.shape).value);
  }
}

=== FILE: values.dfy ===
/**
 * The Python values the extractors return: JSON taken over verbatim, numpy
 * arrays, and dicts built from these.
 */
module Values {
  import opened Json
  import opened NdArray

  datatype Value =
    | Doc(j: Json)                       // a JSON sub-document, a number, a string or None, kept as is
    | Array(t: Tensor)                   // a numpy array
    | Dict(fields: map<string, Value>)   // a dict the extractor builds

  /** Python's None. */
  const PyNone: Value := Doc(Null)

  /** `json.dump` with the numpy-aware encoder: every array is written as its `tolist()`. */
  function Serialize(v: Value): (j: Json)
    ensures v.Dict? ==> j.Obj? && j.fields.Keys == v.fields.Keys
    ensures v.Dict? ==> forall k :: k in v.fields ==> j.fields[k] == Serialize(v.fields[k])
  {
    match v
    case Doc(d) => d
    case Array(t) => ToList(t)
    case Dict(m) => Obj(map k | k in m :: Serialize(m[k]))
  }

  /** An array is written as nested lists of the array's shape whose row-major leaves are its own elements. */
  lemma SerializeArray(t: Tensor, shape: seq<nat>)
    requires HasShape(t, shape)
    ensures ListShape(Serialize(Array(t)), shape)
    ensures Leaves(Serialize(Array(t)), |shape|) == Flatten(t)
  {
    ToListShape(t, shape);
    ToListLeaves(t, shape);
  }
}

=== FILE: wrappers.dfy ===
/** Failure-compatible result type used by every extractor of the model. */
module Wrappers {

  datatype Option<+T> = None | Some(value: T)

  /** Either a value or the exception Python would raise instead. */
  datatype Result<+T, +E> = Ok(value: T) | Err(error: E) {

    predicate IsFailure() {
      Err?
    }

    function PropagateFailure<U>(): Result<U, E>
      requires Err?
    {
      Err(error)
    }

    function Extract(): T
      requires Ok?
    {
      value
    }
  }
}
